=== FILE: README.md ===
# Mandelbrot viewer: viewport, interaction state and shader source

This project models the core of a browser-based Mandelbrot set viewer, `script.js`.
A `Display` object holds a WebGL canvas and a view of the complex plane: a zoom
`scaling` and two `offsets`. It keeps these in step with the mouse, touch, wheel and
settings-panel events. A settings change or an automatic iteration update rebuilds
the fragment shader that draws the set; pans, zooms, pinches and resizes only redraw
it with new uniform values. The model covers five parts:

- **`Numerics`** (`numerics.dfy`): complex numbers and screen points.
  - It models the JavaScript and GLSL rounding and remainder operators used
    (`Math.round`, truncation, GLSL `mod`).
  - `Math.sqrt` and `**` are supplied from outside as a `MathLib` value, with the
    facts the viewer relies on (`Lawful`).
- **`Viewport`** (`viewport.dfy`): the viewport algebra as pure functions on a `View`
  (`scaling`, `offsetX`, `offsetY`) and a `Frame` (canvas width and height in device
  pixels, effective device pixel ratio). It covers:
  - the shader's per-pixel map and `screenToSpace`;
  - anchored zoom (`scaleAround`);
  - the mouse and touch drag translations;
  - the two-finger pinch (`processMultiTouchGesture`);
  - the initial fit (`resetView`);
  - the effective device pixel ratio.
- **`Shader`** (`shader.dfy`): what `getRenderSource` emits, modelled structurally.
  - The emitted shader text is modelled as the choice of loop and the literals it
    embeds.
  - The two escape loops are imperative methods proved against recursive
    specifications.
  - It also covers the palette lookup of `getRGB`, with `i2 = (i1 + 1) mod numColors`,
    the 24-bit colour decode, and the per-pixel `main()`.
- **`Settings`** (`settings.dfy`): what `settingsChanged` does for each control. This
  covers:
  - the clamping of numeric inputs to `[min, max]`;
  - the hexadecimal parse of colour inputs;
  - `setAutoIterations` as a function on the settings record.
- **`Engine`** (`engine.dfy`): the `Display` object as a class whose fields the
  handlers update in place. The fields are the window and canvas sizes, the view, the
  settings and compiled program, `resolutionScaling`, `mouseIsDown`, `touchIDs` and
  `touchCoords`, and the pending resolution-reset flag of the wheel's 300 ms timer.
  - The class has the constructor, `setCanvasSize`, `resetView` and `scaleAround`.
  - It has the mouse, touch and wheel handlers, the timer callback,
    `settingsChanged` and `setAutoIterations`.
  - It has the page-level `resetView` command.
  - Each method's `ensures` ties the new state to the `Viewport`/`Settings` function of
    the old state.

The model's main results are these:

- **`scaleAround`:**
  - It keeps the *real* part under the anchor: `ScaleAroundKeepsAnchor`.
  - It moves `screenToSpace`'s imaginary part under the anchor by a proved amount,
    which is non-zero whenever the factor is not 1 and the anchor's row is not the
    one where `cy * step == 1.1`: `ScaleAroundMovesScreenImag`. The reason is that `screenToSpace` measures y
    from the top while `gl_FragCoord.y` counts from the bottom.
  - The point the shader actually *draws* under the anchor stays put exactly when the
    canvas height sets the unit length (`ScaleAroundDrawnAnchor`), that is when
    `w / h >= 1.3 / 1.1`. The comment at `script.js:333-338` says zoom misbehaves
    when the window is taller than wide; that case falls inside the wider condition
    proved here, which also covers slightly wide canvases such as 1200 x 1100.
- **Drags** carry the drawn image with the pointer on both axes (`DragFollowsPointer`).
  A pinch carries the drawn point under its centre along with the centre's movement
  (`PinchCarriesMidpoint`).
- **The shader's two loops** each compute their specification:
  - the first escaping step for the standard loop;
  - the running maximum of `|z|^2` for the inverse loop.
  The black/coloured decision is characterised in terms of escape (`StandardOutcome`,
  `InverseOutcome`).
- **Colours:**
  - Colour decoding yields channels in `[0, 1]`.
  - The palette lookup reads consecutive slots, wrapping round.
  - Colouring is periodic in `period`.
- **Settings:**
  - Clamping keeps values inside `[min, max]` and leaves in-range values alone.
  - Hexadecimal parsing inverts hexadecimal printing.
  - Each control changes exactly its own field.

## Behaviour of the code

The model follows `script.js` as written, including where it behaves in ways a
reader of its comments might not expect:

- **The anchor under `scaleAround`.** Only the real part of `screenToSpace` under
  the anchor is kept (`ScaleAroundKeepsAnchor`). The imaginary part moves by a
  proved amount (`ScaleAroundMovesScreenImag`).
- **The canvas centre after a reset.** On a 1300 x 1100 canvas both reset offsets
  are 0 and the centre pixel maps to `-0.7 + 0i`, the middle of the fitted range
  [-2, 0.6] (`ReferenceCanvasCentre`). On every other shape the centre is elsewhere
  (`ResetViewCentre`; see "## Findings").
- **Touch identifiers.** `handleTouchMove` compares only `touchIDs[0]` with the
  first touch of the event. When that does not match, it swaps the two touches and
  pinches anyway (`OrderTouches`, `HandleTouchMove`).
- **Degenerate pinches.** `processMultiTouchGesture` divides by the old finger
  separation and has no guard for 0. The model requires both separations to be
  positive.
- **No guards.** No transform checks for NaN or Infinity. The model keeps the scaling
  positive through preconditions: positive zoom factors and a positive initial
  scaling.
- **`resetView` and the scaling.** The method `resetView` leaves the scaling alone
  (`Engine.Display.ResetView`). Only the page-level reset command sets it to 1 first
  (`Engine.Display.ResetViewCommand`).
- **Palette fallback.** `getRGB` starts `c1` at `col[0]` and `c2` at `col[1]`. A slot
  outside 0 to 7 leaves them there (`Slot`).
- **The `gradient` check box.** `settingsChanged` `break`s out of its first `switch`
  for this box instead of returning. It then runs the numeric code, which assigns
  nothing for it (`Apply`).

## Model

| member | source | states |
|---|---|---|
| Numerics.Round | script.js:673 | `Math.round(x)` is the integer within half a unit of `x`, halves rounding up |
| Numerics.Trunc | script.js:230-232 | truncation toward zero: `n <= x < n + 1` for `x >= 0`, `n - 1 < x <= n` below |
| Numerics.GlslMod | script.js:747-750 | GLSL `mod(x, y)` lies in `[0, y)` for positive `y` and in `(y, 0]` for negative `y` |
| Numerics.GlslModOfInt | script.js:785-790 | on integers GLSL `mod` is the Euclidean remainder and `floor(n / d)` the integer quotient |
| Numerics.GlslModPeriodic | script.js:747 | `mod(x + y, y) == mod(x, y)` |
| Numerics.GlslModOfSmall | script.js:750 | `mod(x, y) == x` for `0 <= x < y` |
| Numerics.Max | script.js:702-704 | the inverse loop's `if (m > result) result = m`: an upper bound of both arguments, equal to one of them |
| Numerics.Min | script.js:282 | `Math.min` is a lower bound equal to one of its arguments |
| Viewport.EffectiveDpr | script.js:268-273 | the ratio is positive; outside throttled inverse mode it is `(devicePixelRatio \|\| 1) * resolutionScaling`, at full resolution just `devicePixelRatio \|\| 1`; at low resolution in inverse mode it is half that product |
| Viewport.Unit | script.js:280-282 | the unit length is `min(w / 1.3, h / 1.1)`: a lower bound equal to one of the two, positive on a non-empty canvas |
| Viewport.FragToPlane | script.js:725-727 | the shader's per-pixel map; at the reset view of scaling 1 and zero offsets the framebuffer's bottom-left pixel is `-2 + 1.1i`, so the imaginary axis points down the screen |
| Viewport.FragToPlaneAffine | script.js:725-727 | the shader's pixel-to-plane map is affine, `2 / unit` plane units per device pixel scaled by `1 / scaling`, y pointing up |
| Viewport.ScreenToSpace | script.js:314-330 | `screenToSpace` is the shader's map applied to the client pixel times the ratio, with y not flipped |
| Viewport.ScreenToSpaceAffine | script.js:314-330 | `screenToSpace` is affine in the client pixel with step `2 * dpr / unit` per pixel |
| Viewport.DrawnPointAffine | script.js:725-727 | the point drawn under a client pixel, with y measured from the canvas bottom, in affine form |
| Viewport.FragPlaneRoundTrip | script.js:725-727 | pixel to plane and back through the inverse map returns the pixel |
| Viewport.PlaneFragRoundTrip | script.js:725-727 | plane to pixel and back returns the plane point |
| Viewport.ScreenRoundTrip | script.js:314-330 | `screenToSpace` followed by the inverse shader map, divided by the ratio, returns the client pixel |
| Viewport.ScaleAround | script.js:344-362 | the new scaling is the old one times the factor and the view stays drawable |
| Viewport.ScaleAroundKeepsAnchor | script.js:344-362 | the real part `screenToSpace` gives for the anchor is the same before and after the zoom |
| Viewport.ScaleAroundMovesScreenImag | script.js:356-360 | the imaginary part under the anchor moves by `2 * (1.1 - cy * step) * (1/new - 1/old)`, so it changes for any factor other than 1 unless that term is 0 |
| Viewport.ScaleAroundOffsets | script.js:356-360 | each new offset is the old one plus the anchor's coordinate times the change of `1 / scaling` |
| Viewport.ScaleAroundDrawnAnchor | script.js:333-362 | the drawn real part under the anchor is kept; the whole drawn point is kept iff the height sets the unit; otherwise any zoom other than by 1 moves its imaginary part |
| Viewport.AnchorDrift | script.js:356-360 | the same three facts for any view whose offsets moved as `scaleAround` moves them |
| Viewport.DragDelta | script.js:531-532 | `screenToSpace(0, 0) - screenToSpace(dx, dy)`; no movement gives a zero delta |
| Viewport.TouchDrag | script.js:531-535 | a touch drag keeps the scaling, and a drag by nothing leaves the view as it is |
| Viewport.MouseDrag | script.js:605-609 | a mouse drag keeps the scaling, and leaves the view as it is when the mouse did not move or the sensitivity is 0 |
| Viewport.DragDeltaAffine | script.js:531-535 | `screenToSpace(0,0) - screenToSpace(dx,dy)` is `(-dx, dy)` pixel steps divided by the scaling |
| Viewport.TouchDragAffine | script.js:528-535 | a touch drag keeps the scaling and moves each offset by the displacement in plane units |
| Viewport.MouseDragScales | script.js:600-612 | a mouse drag keeps the scaling, moves each offset `dragSense` times as far as a touch drag, and equals it at sensitivity 1 |
| Viewport.DragFollowsPointer | script.js:528-535 | after a drag by `(dx, dy)` the point drawn under `(x + dx, y + dy)` is the one drawn under `(x, y)` before |
| Viewport.ResetView | script.js:278-290 | the scaling is kept, both offsets are non-positive and at least one is 0 |
| Viewport.ResetViewOffsets | script.js:278-290 | the offsets are `1 - w / unit` and `1 - h / unit` |
| Viewport.ResetViewFits | script.js:278-290 | at scaling 1 the canvas shows all of `[-2, 0.6] x [-1.1, 1.1]`, and exactly that range along the constraining dimension |
| Viewport.ReferenceCanvasCentre | script.js:278-290 | on a 1300 x 1100 canvas the reset offsets are 0 and the centre pixel maps to `-0.7 + 0i` |
| Viewport.ResetViewCentre | script.js:278-290 | after a reset at scaling 1 the canvas centre is `(0.3 kx - 1) + (0.1 - 0.1 ky)i`, with `kx`, `ky` the canvas sides in unit lengths, which is `-0.7 + 0i` iff the canvas has the 1.3 : 1.1 shape |
| Viewport.ResetViewOffCentre | script.js:278-290 | on 2600 x 1100 the reset canvas spans real [-3, 2.2] with centre -0.4; on 1300 x 2200 the centre is `-0.7 - 0.1i` |
| Viewport.CenteredResetViewOffsets | script.js:279-289 | the corrected offsets are `1.3 (1 - kx)` and `1.1 (1 - ky)` |
| Viewport.CenteredResetViewCentres | script.js:279-289 | after the corrected reset the centre is `-0.7 + 0i` on every shape and all of [-2, 0.6] x [-1.1, 1.1] is visible |
| Viewport.ScrollFactor | script.js:623 | the wheel's zoom factor `1.001 ** (-deltaY * scrollSense)` is positive |
| Viewport.Dist2 | script.js:567-570 | the squared finger separation is non-negative |
| Viewport.PinchFactor | script.js:567-571 | the factor is non-negative and its square scales the old separation to the new one |
| Viewport.PinchFactorValues | script.js:567-571 | fingers kept apart give a positive factor; an unchanged separation gives exactly 1 |
| Viewport.Midpoint | script.js:555-566 | the finger centre `(b + a) * 0.5` lies halfway between the two touches on each axis |
| Viewport.MidpointSymmetric | script.js:572-577 | the centre does not depend on the order of the touches |
| Viewport.PinchMove | script.js:578-583 | the centre's movement scaled by the factor; fingers whose centre did not move give no translation |
| Viewport.PinchView | script.js:554-593 | a pinch multiplies the scaling by the factor and keeps the view drawable |
| Viewport.PinchCarriesMidpoint | script.js:554-593 | the drawn real part under the centres' midpoint moves with the scaled centre movement; so does the whole drawn point when the height sets the unit |
| Viewport.PinchAtRest | script.js:554-593 | a pinch whose fingers did not move has factor 1 and leaves the view unchanged |
| Shader.Step | script.js:676-678 | one step `z := z * z + c` as the shader writes it with `oldR`; with `c = 0` it squares the squared modulus |
| Shader.Orbit | script.js:675-679 | `z` after `n` steps from 0: the first step is `c`, and the origin never leaves 0 (a proof by induction) |
| Shader.EscapeIndex | script.js:675-683 | the first step in range whose squared modulus exceeds 4, with no earlier one escaping |
| Shader.StandardIter | script.js:673-688 | the value of `iter` after the standard loop lies in `[1, maxIter]` |
| Shader.StandardIterMeaning | script.js:673-688 | `iter` is the first escaping step below `maxIter`, or `maxIter` exactly when no earlier step escapes |
| Shader.RunningMax | script.js:698-708 | the running maximum bounds every squared modulus seen |
| Shader.RunningMaxLeast | script.js:698-708 | and it is the least such bound |
| Shader.StandardEscape | script.js:673-688 | the standard loop computes `StandardIter` |
| Shader.InverseEscape | script.js:694-711 | the inverse loop ends bounded iff no step escapes; bounded gives the running maximum (at most 4), unbounded the modulus at the first escape |
| Shader.GetRenderSource | script.js:670-693 | the embedded iteration and colour counts are the rounded inputs; palette, flags and period pass through |
| Shader.Decode | script.js:784-790 | the channels are `c / 65536`, `(c / 256) mod 256` and `c mod 256`, each over 255 |
| Shader.DecodeBytes | script.js:784-790 | the three bytes of a packed colour lie in `[0, 255]` and recombine to it; the decoded channels lie in `[0, 1]` |
| Shader.PaletteSegment | script.js:746-750 | `i1` and `i2` are slots below `numColors` with `i2 == (i1 + 1) mod numColors`; with `x = mod(result, period)` and `cpp = period / numColors`, `x / cpp` lies in `[i1, i1 + 1)` and equals `i1` plus the blend position, which lies in `[0, 1)` |
| Shader.PaletteSegmentIndex | script.js:746-748 | the lower slot is `k` exactly when `mod(result, period)` lies in the `k`-th of the `numColors` equal parts of the period |
| Shader.PaletteSegmentAtZero | script.js:746-750 | results 0 and `period` start at slot 0 with blend position 0, blending toward slot `1 mod numColors` |
| Shader.PaletteSegmentWraps | script.js:746-750 | up to one colour width below a whole period the lower slot is the last one and the upper slot is 0, so the palette cycles back |
| Shader.PaletteSegmentPeriodic | script.js:746-750 | results a period apart fall into the same segment |
| Shader.Slot | script.js:762-781 | the `if` chain reads slot `i` when `0 <= i < 8`, otherwise the initial slot |
| Shader.Lerp | script.js:792-796 | the blend of two channels in `[0, 1]` at a position in `[0, 1]` stays in `[0, 1]` and starts at the first |
| Shader.GetRGB | script.js:740-803 | every colour `getRGB` returns has channels in `[0, 1]` |
| Shader.GetRGBSlots | script.js:762-801 | with at most 8 colours: the lower slot's colour without the gradient, the blend from it toward the next slot (wrapping) with it |
| Shader.GetRGBPeriodic | script.js:746-750 | colouring is periodic in `period` |
| Shader.PixelOutcome | script.js:680-711 | the black-or-coloured decision of the template's tail; a coloured result is non-negative, and in standard mode lies in `[1/1000, maxIter/1000)` |
| Shader.StandardOutcome | script.js:686-691 | standard mode paints black exactly the points with no escape before `maxIter`, otherwise colours by `k / 1000` for the first escape `k` |
| Shader.InverseOutcome | script.js:711 | inverse mode paints black exactly the points that escape within `maxIter` steps, and colours the rest by a value in `[0, 4]` |
| Shader.OutcomeColor | script.js:729-736 | black is `(0, 0, 0)`; every colour is in `[0, 1]` |
| Shader.Shade | script.js:722-737 | the shader's `main()` yields the colour of the outcome of the chosen loop at the pixel's plane point |
| Settings.Defaults | script.js:26-39 | the initial settings hold eight colour strings and eight packed colours |
| Settings.Clamp | script.js:230-236 | the clamped value lies in `[lo, hi]` and equals the input iff the input does |
| Settings.FlooredValue | script.js:230-232 | `x` is an integer within the truncated bounds, equal to the floored input when that is in range |
| Settings.RawValue | script.js:234-236 | `y` lies in `[min, max]` and equals the input when that is in range |
| Settings.ParseHex | script.js:180 | `parseInt(s, 16)` of `n` digits is below `16^n` |
| Settings.ColorValuePacked | script.js:180 | a colour input's value parses to a packed `0xRRGGBB` colour |
| Settings.ParseToHex | script.js:180 | parsing the hexadecimal digits of a value gives the value back |
| Settings.ParseSix | script.js:180 | six digits parse positionally |
| Settings.DefaultPaletteAgrees | script.js:38-39 | the initial colour strings parse to the initial packed colours |
| Settings.Compile | script.js:115-118 | the program compiled from the settings loops `iterations` rounded to the nearest integer times, uses the colour count rounded likewise, and embeds the mode, the gradient flag, the period and the packed palette |
| Settings.Apply | script.js:156-265 | every control keeps eight colours and eight packed colours |
| Settings.ApplyNumeric | script.js:230-261 | a numeric control stores its clamped value in its own field and changes no other field |
| Settings.ApplyColor | script.js:176-224 | a colour control changes its own slot of both lists, to a packed colour, and nothing else |
| Settings.ApplyFlag | script.js:158-174 | a check box sets its own flag and nothing else |
| Settings.AutoIterations | script.js:494-498 | with the auto box off nothing changes; with it on only the iteration count changes, to `scaling ** 0.25 * 50`, which is positive |
| Settings.AutoIterationsAtUnitScale | script.js:494-498 | at scaling 1 the automatic count is 50 |
| Engine.StoredDimension | script.js:273-274 | the stored attribute lies in `[0, 2^31 - 1]`; below 2^31 it is the truncated value; from 2^31 to 2^32 it is the default |
| Engine.CanvasDimension | script.js:273-274 | the same for the window dimension times the ratio |
| Engine.OrderTouches | script.js:509-519 | the pair is a permutation of the two touches: in event order when the first matches `touchIDs[0]`, reversed otherwise |
| Engine.Display.constructor | script.js:11-80 | default settings, scaling 1, full resolution, a sized canvas with the set fitted in, no touches |
| Engine.Display.SetCanvasSize | script.js:268-276 | each canvas side is `CanvasDimension` of the window side and the effective ratio, with the browser's default sizes |
| Engine.Display.Resize | script.js:60 | the new window is stored and the canvas follows it |
| Engine.Display.ResetView | script.js:278-290 | the view becomes `Viewport.ResetView` of the old view on the current canvas |
| Engine.Display.ScaleAround | script.js:344-362 | the view becomes `Viewport.ScaleAround` of the old one |
| Engine.Display.SetAutoIterations | script.js:494-498 | the settings become `AutoIterations` of the old ones; the program is recompiled |
| Engine.Display.HandleMouseDown | script.js:367-374 | the button is down, the resolution drops to `lowRes` and the canvas is resized |
| Engine.Display.HandleMouseUp | script.js:379-387 | the button is up, full resolution, canvas resized |
| Engine.Display.HandleMouseMove | script.js:600-612 | with the button down the view becomes `MouseDrag` of the old one; otherwise it is unchanged |
| Engine.Display.RecordTouches | script.js:398-422 | two touches are stored in event order; more clear both lists |
| Engine.Display.HandleTouchStart | script.js:392-435 | as recorded above for several touches; one touch is stored and drops the resolution; the button flag is set |
| Engine.Display.HandleTouchEnd | script.js:442-492 | several touches are recorded; one is stored; none clears the lists, restores full resolution and applies `setAutoIterations`; the button flag clears unless several remain |
| Engine.Display.ProcessMultiTouchGesture | script.js:554-593 | the view becomes `PinchView` of the old one with the pinch factor of the two coordinate pairs |
| Engine.Display.DragBy | script.js:586-590 | the view becomes `TouchDrag` of the old one |
| Engine.Display.HandleTouchMove | script.js:505-545 | two touches pinch and replace the coordinates; one drags and becomes the stored touch; more change nothing; a missing touch or coordinate throws with no change |
| Engine.Display.HandleScroll | script.js:619-647 | the view becomes `Viewport.ScaleAround` by the wheel factor about the pointer, low resolution, a reset pending |
| Engine.Display.SettleTimerFires | script.js:637-644 | full resolution, canvas resized, `AutoIterations` applied, nothing pending |
| Engine.Display.SettingsChanged | script.js:156-265 | the settings become `Apply` of the old ones (then `AutoIterations` for the auto box) and the program is recompiled |
| Engine.Display.ResetViewCommand | script.js:812-822 | scaling 1, the set fitted into the canvas, `AutoIterations` at scaling 1 (50 iterations when the auto box is ticked), full resolution |

## Findings

| source | as written | input that shows it | evidently intended | confidence | as-written member | corrected member |
|---|---|---|---|---|---|---|
| script.js:279-289 | `resetView` sets the offset to `-(w - h) / unit` or `-(h - w) / unit`, which centres the fitted range only on the 1.3 : 1.1 shape, although the comment at line 279 promises the set in the middle of the screen | a 2600 x 1100 canvas at scaling 1 and ratio 1: the canvas shows real [-3, 2.2], centre -0.4, while the fitted range [-2, 0.6] has centre -0.7 | offsets `-1.3 * (w - h) / unit` and `-1.1 * (h - w) / unit` | medium, not executed | Viewport.ResetViewOffCentre | Viewport.CenteredResetViewCentres |

The corrected reset is `Viewport.CenteredResetView`. `Engine.Display.ResetView` and
`Engine.Display.ResetViewCommand` keep the offsets as written, because they model
what the viewer does.

## Left out

- Engine.Display.ResetView: uses the offsets as written rather than
  `CenteredResetView`, so it does not centre the set on canvases of other shapes
  (see "## Findings").
- **Floating point.** All `Number` and GLSL `float` arithmetic is modelled over exact
  reals. Rounding, overflow to infinity, NaN and GLSL `highp` precision are not
  modelled. The assignment to `canvas.width` and `canvas.height` is modelled as the
  browser stores it (`StoredDimension`), except for NaN and infinite products.
- **Inputs that are not numbers.** Inputs that are NaN, empty or non-numeric, and the
  string forms of `min`/`max` read by `parseInt` and `parseFloat`, are left out.
  `min` and `max` are taken as numbers, and `parseInt` as truncation.
- **`Math.sqrt` and `**`.** These are supplied as the `MathLib` parameter, with only
  the facts in `Lawful`. `x ** 2` is modelled as `x * x`.
- Shader.Renderable: requires a positive `period` and at least one colour, so
  `PaletteSegment`, `GetRGB`, `Shade` and what builds on them do not model the
  division by `Math.round(numColors)` or the `mod` by `period` when `settingsChanged`
  has stored a non-positive period or a colour count that rounds below 1
  (GLSL leaves those results undefined).
- **Division by zero.** It is excluded by preconditions:
  - the canvas must be non-empty before a transform. `HandleMouseMove` requires this
    only while the button is down. `HandleTouchMove` requires it only for two
    touches with two stored coordinates, or one touch with a stored coordinate:
    the paths that reach a division by the unit length rather than throwing first;
  - the scaling must be non-zero;
  - both pinch separations must be positive (JavaScript would produce Infinity or
    NaN).
- **WebGL and the DOM.** `render` (which uploads the uniform values), `compileProgram`
  (shader compilation, linking and uniform location lookup), `createVertexBuffer`,
  the `gl.viewport` call, the check-box and `iterInput.disabled` updates and `preventDefault` are not modelled. The compiled
  program is modelled as the structural `RenderSource` it is built from.
- **The emitted text.** The shader is modelled by its parameters, not by its exact
  characters.
- **`updateBlur` and `exportImage`.** `updateBlur` only writes a CSS filter.
  `exportImage` first sets `resolutionScaling` to 1 and calls `setCanvasSize`, then
  re-renders and downloads a PNG. Neither is modelled.
- **The wheel's timer.** Timers are reduced to a `settlePending` flag and a
  `SettleTimerFires` method that the environment calls. The 300 ms delay and
  `clearTimeout` are not modelled.
- **Event listener wiring.** Listener registration and `window.onresize` are modelled
  only as `Resize`, which leaves out the re-render.
- **Loops that do not run.** A standard-mode loop with `Math.round(iterations) < 1`
  leaves GLSL's `iter` undefined. `StandardEscape`, `PixelOutcome` and `Shade` require
  `1 <= maxIter` in standard mode.
- **`Engine.Display.SettingsChanged`** requires a colour input's value to be `#`
  followed by six hexadecimal digits, as `<input type="color">` guarantees.
  `parseInt` of other strings is not modelled.
- **`Engine.Display.HandleTouchMove`** models a read of a missing touch or stored
  coordinate as a thrown `TypeError`, reported in `thrown`, with no field changed.

=== FILE: engine.dfy ===
/** The renderer object: the window it sizes its canvas from, the view it draws,
    the settings and the shader compiled from them, and the interaction state
    the mouse, touch, wheel and timer handlers change in place. Drawing itself
    (clearing the canvas and issuing the draw call) has no state of its own and
    is not part of this model. */
module Engine {
  import opened Numerics
  import opened Viewport
  import Shader
  import opened Settings

  /** One entry of `event.touches`: its identifier and client coordinates. */
  datatype Touch = Touch(identifier: int, clientX: real, clientY: real)

  function Position(t: Touch): Point {
    Point(t.clientX, t.clientY)
  }

  const TwoTo32: int := 0x1_0000_0000

  /** The largest value a reflected `unsigned long` attribute stores. */
  const MaxReflected: int := 0x7FFF_FFFF

  /** The canvas size a browser falls back to. */
  const DefaultCanvasWidth: int := 300
  const DefaultCanvasHeight: int := 150

  /** Assigning the number `x` to a reflected `unsigned long` attribute such as
      `canvas.width`. The number is converted to an `unsigned long`: it is
      truncated toward zero and taken modulo 2^32. A converted value above
      2^31 - 1 is not stored; the attribute takes its default instead. */
  function StoredDimension(x: real, default: int): (n: int)
    requires 0 <= default <= MaxReflected
    ensures 0 <= n <= MaxReflected
    ensures 0.0 <= x < (MaxReflected + 1) as real ==> n as real <= x < n as real + 1.0
    ensures (MaxReflected + 1) as real <= x < TwoTo32 as real ==> n == default
  {
    var wrapped := Trunc(x) % TwoTo32;
    if wrapped <= MaxReflected then wrapped else default
  }

  /** `canvas.width = window.innerWidth * dpr` (and the same for the height). */
  function CanvasDimension(inner: real, dpr: real, default: int): (n: int)
    requires 0 <= default <= MaxReflected
    ensures 0 <= n <= MaxReflected
    ensures 0.0 <= inner * dpr < (MaxReflected + 1) as real ==> n as real <= inner * dpr < n as real + 1.0
    ensures (MaxReflected + 1) as real <= inner * dpr < TwoTo32 as real ==> n == default
  {
    StoredDimension(inner * dpr, default)
  }

  /** The two touches of a two-finger move, the one whose identifier matches
      `touchIDs[0]` first; when it does not match (or there is no stored
      identifier) the event's order is reversed. */
  function OrderTouches(touches: seq<Touch>, touchIDs: seq<int>): (pair: seq<Point>)
    requires |touches| == 2
    ensures |pair| == 2 && multiset(pair) == multiset{Position(touches[0]), Position(touches[1])}
    ensures |touchIDs| > 0 && touches[0].identifier == touchIDs[0] ==> pair[0] == Position(touches[0])
    ensures !(|touchIDs| > 0 && touches[0].identifier == touchIDs[0]) ==>
              pair == [Position(touches[1]), Position(touches[0])]
  {
    if |touchIDs| > 0 && touches[0].identifier == touchIDs[0]
    then [Position(touches[0]), Position(touches[1])]
    else [Position(touches[1]), Position(touches[0])]
  }

  class Display {
    /** `Math.sqrt` and `**` of the runtime. */
    const math: MathLib

    /** `window.innerWidth`, `window.innerHeight` and `window.devicePixelRatio`. */
    var innerWidth: real
    var innerHeight: real
    var devicePixelRatio: real

    /** `gl.canvas.width` and `gl.canvas.height`. */
    var canvasWidth: int
    var canvasHeight: int

    var scaling: real
    var offsetX: real
    var offsetY: real

    var settings: Config
    /** The shader program last compiled. */
    var program: Shader.RenderSource

    var resolutionScaling: real
    var mouseIsDown: bool
    var touchIDs: seq<int>
    var touchCoords: seq<Point>
    /** Whether a scroll's 300 ms resolution reset is scheduled (`zoomTimeoutID`). */
    var settlePending: bool

    ghost predicate Valid()
      reads this`scaling, this`settings, this`program, this`touchIDs, this`touchCoords
    {
      && Lawful(math)
      && 0.0 < scaling
      && WellFormed(settings)
      && program == Compile(settings)
      && |touchIDs| == |touchCoords| <= 2
    }

    function CurrentView(): View
      reads this`scaling, this`offsetX, this`offsetY
    {
      View(scaling, offsetX, offsetY)
    }

    /** The effective device pixel ratio, computed from the current fields. */
    function Dpr(): real
      reads this`devicePixelRatio, this`resolutionScaling, this`settings
    {
      EffectiveDpr(devicePixelRatio, resolutionScaling, settings.lowRes, settings.renderInverse)
    }

    function CurrentFrame(): Frame
      reads this`canvasWidth, this`canvasHeight, this`devicePixelRatio, this`resolutionScaling, this`settings
    {
      Frame(canvasWidth as real, canvasHeight as real, Dpr())
    }

    /** The canvas has pixels in both directions, so the unit length is positive. */
    predicate CanvasNonEmpty()
      reads this`canvasWidth, this`canvasHeight
    {
      0 < canvasWidth && 0 < canvasHeight
    }

    /** The canvas has the size `setCanvasSize` gives it for the current window and ratio. */
    predicate Sized()
      reads this`canvasWidth, this`canvasHeight, this`innerWidth, this`innerHeight, this`devicePixelRatio,
            this`resolutionScaling, this`settings
    {
      && canvasWidth == CanvasDimension(innerWidth, Dpr(), DefaultCanvasWidth)
      && canvasHeight == CanvasDimension(innerHeight, Dpr(), DefaultCanvasHeight)
    }

    /** Initial settings, scaling 1, full resolution, a sized canvas and the set
        fitted into it; no touches, mouse up, no reset pending. */
    constructor (m: MathLib, innerWidth: real, innerHeight: real, devicePixelRatio: real)
      requires Lawful(m)
      requires var d := if devicePixelRatio == 0.0 then 1.0 else devicePixelRatio;
               0 < CanvasDimension(innerWidth, d, DefaultCanvasWidth) && 0 < CanvasDimension(innerHeight, d, DefaultCanvasHeight)
      ensures Valid() && Sized() && CanvasNonEmpty()
      ensures settings == Defaults() && resolutionScaling == 1.0
      ensures CurrentView() == Viewport.ResetView(View(1.0, 0.0, 0.0), CurrentFrame())
      ensures !mouseIsDown && touchIDs == [] && touchCoords == [] && !settlePending
    {
      math := m;
      this.innerWidth := innerWidth;
      this.innerHeight := innerHeight;
      this.devicePixelRatio := devicePixelRatio;
      scaling := 1.0;
      offsetX := 0.0;
      offsetY := 0.0;
      var initial := Defaults();
      settings := initial;
      resolutionScaling := 1.0;
      program := Compile(initial);
      mouseIsDown := false;
      touchIDs := [];
      touchCoords := [];
      settlePending := false;
      canvasWidth := 0;
      canvasHeight := 0;
      new;
      SetCanvasSize();
      ResetView();
    }

    /** `setCanvasSize`: the window size times the effective ratio, in device pixels. */
    method SetCanvasSize()
      modifies this`canvasWidth, this`canvasHeight
      ensures Sized()
    {
      var dpr := Dpr();
      canvasWidth := CanvasDimension(innerWidth, dpr, DefaultCanvasWidth);
      canvasHeight := CanvasDimension(innerHeight, dpr, DefaultCanvasHeight);
    }

    /** `window.onresize`: the browser reports a new window, the canvas follows. */
    method Resize(newWidth: real, newHeight: real, newRatio: real)
      modifies this`innerWidth, this`innerHeight, this`devicePixelRatio, this`canvasWidth, this`canvasHeight
      ensures innerWidth == newWidth && innerHeight == newHeight && devicePixelRatio == newRatio
      ensures Sized()
    {
      innerWidth, innerHeight, devicePixelRatio := newWidth, newHeight, newRatio;
      SetCanvasSize();
    }

    /** The `resetView` method: offsets that fit the set into the canvas. */
    method ResetView()
      requires CanvasNonEmpty()
      modifies this`offsetX, this`offsetY
      ensures CurrentView() == Viewport.ResetView(old(CurrentView()), CurrentFrame())
    {
      var w := canvasWidth as real / ScreenXRatio;
      var h := canvasHeight as real / ScreenYRatio;
      var unit := Min(w, h);
      if w >= h {
        offsetX := -(w - h) / unit;
        offsetY := 0.0;
      } else {
        offsetY := -(h - w) / unit;
        offsetX := 0.0;
      }
    }

    /** `scaleAround`: zoom by `factor` about the client pixel `(cx, cy)`. */
    method ScaleAround(factor: real, cx: real, cy: real)
      requires Valid() && CanvasNonEmpty() && 0.0 < factor
      modifies this`scaling, this`offsetX, this`offsetY
      ensures Valid()
      ensures CurrentView() == Viewport.ScaleAround(old(CurrentView()), CurrentFrame(), factor, cx, cy)
    {
      var zoomed := Viewport.ScaleAround(CurrentView(), CurrentFrame(), factor, cx, cy);
      offsetX := zoomed.offsetX;
      offsetY := zoomed.offsetY;
      scaling := zoomed.scaling;
    }

    /** `setAutoIterations`: with the auto box ticked, derive the iteration count
        from the scaling and recompile. */
    method SetAutoIterations()
      requires Valid()
      modifies this`settings, this`program
      ensures Valid()
      ensures settings == AutoIterations(old(settings), math, scaling)
      ensures settings.lowRes == old(settings.lowRes) && settings.renderInverse == old(settings.renderInverse)
    {
      if !settings.autoSetIter {
        return;
      }
      settings := settings.(iterations := math.pow(scaling, 0.25) * 50.0);
      program := Compile(settings);
    }

    method HandleMouseDown()
      modifies this`mouseIsDown, this`resolutionScaling, this`canvasWidth, this`canvasHeight
      ensures mouseIsDown && resolutionScaling == settings.lowRes && Sized()
    {
      mouseIsDown := true;
      resolutionScaling := settings.lowRes;
      SetCanvasSize();
    }

    method HandleMouseUp()
      modifies this`mouseIsDown, this`resolutionScaling, this`canvasWidth, this`canvasHeight
      ensures !mouseIsDown && resolutionScaling == 1.0 && Sized()
    {
      mouseIsDown := false;
      resolutionScaling := 1.0;
      SetCanvasSize();
    }

    /** A mouse move drags the view by `(movementX, movementY)` times the drag
        sensitivity while the button is down, and does nothing otherwise. */
    method HandleMouseMove(movementX: real, movementY: real)
      requires Valid() && (mouseIsDown ==> CanvasNonEmpty())
      modifies this`offsetX, this`offsetY
      ensures !mouseIsDown ==> CurrentView() == old(CurrentView())
      ensures mouseIsDown ==>
                CurrentView() == MouseDrag(old(CurrentView()), CurrentFrame(), movementX, movementY, settings.dragSense)
    {
      if !mouseIsDown {
        return;
      }
      // screenToSpace(0, 0) - screenToSpace(movementX, movementY)
      var view, frame, sense := CurrentView(), CurrentFrame(), settings.dragSense;
      var delta := DragDelta(view, frame, movementX, movementY);
      offsetX := offsetX + delta.r * sense;
      offsetY := offsetY + delta.i * sense;
      assert CurrentView() == MouseDrag(view, frame, movementX, movementY, sense);
    }

    /** Store the touches of a `touchstart` or `touchend` with two or more
        touches: exactly two are recorded in event order, more clear both lists. */
    method RecordTouches(touches: seq<Touch>)
      requires 1 < |touches|
      modifies this`touchIDs, this`touchCoords
      ensures |touches| == 2 ==> touchIDs == [touches[0].identifier, touches[1].identifier]
                                 && touchCoords == [Position(touches[0]), Position(touches[1])]
      ensures 2 < |touches| ==> touchIDs == [] && touchCoords == []
    {
      if |touches| == 2 {
        touchIDs := [];
        touchCoords := [];
        touchIDs := touchIDs + [touches[0].identifier];
        touchIDs := touchIDs + [touches[1].identifier];
        touchCoords := touchCoords + [Position(touches[0])];
        touchCoords := touchCoords + [Position(touches[1])];
      }
      if |touches| > 2 {
        touchIDs := [];
        touchCoords := [];
      }
    }

    /** `touchstart`: several touches are recorded for a pinch; a single touch
        starts a drag at low resolution. */
    method HandleTouchStart(touches: seq<Touch>)
      requires Valid()
      modifies this`mouseIsDown, this`touchIDs, this`touchCoords, this`resolutionScaling,
               this`canvasWidth, this`canvasHeight
      ensures Valid() && mouseIsDown
      ensures |touches| == 2 ==> touchIDs == [touches[0].identifier, touches[1].identifier]
                                 && touchCoords == [Position(touches[0]), Position(touches[1])]
      ensures 2 < |touches| ==> touchIDs == [] && touchCoords == []
      ensures |touches| == 1 ==> touchIDs == [touches[0].identifier] && touchCoords == [Position(touches[0])]
                                 && resolutionScaling == settings.lowRes && Sized()
      ensures |touches| != 1 ==> resolutionScaling == old(resolutionScaling)
                                 && canvasWidth == old(canvasWidth) && canvasHeight == old(canvasHeight)
      ensures |touches| == 0 ==> touchIDs == old(touchIDs) && touchCoords == old(touchCoords)
    {
      mouseIsDown := true;
      if |touches| > 1 {
        RecordTouches(touches);
        return;
      }
      if |touches| == 1 {
        touchIDs := [touches[0].identifier];
        touchCoords := [Position(touches[0])];
        mouseIsDown := true;
        resolutionScaling := settings.lowRes;
        SetCanvasSize();
      }
    }

    /** `touchend`, given the touches still down: two or more are recorded as on
        `touchstart` and leave the mouse flag alone; one is recorded as the drag
        anchor; none clears both lists and restores full resolution. */
    method HandleTouchEnd(touches: seq<Touch>)
      requires Valid()
      modifies this`mouseIsDown, this`touchIDs, this`touchCoords, this`resolutionScaling,
               this`canvasWidth, this`canvasHeight, this`settings, this`program
      ensures Valid()
      ensures |touches| == 2 ==> touchIDs == [touches[0].identifier, touches[1].identifier]
                                 && touchCoords == [Position(touches[0]), Position(touches[1])]
      ensures 2 < |touches| ==> touchIDs == [] && touchCoords == []
      ensures 1 < |touches| ==> mouseIsDown == old(mouseIsDown)
      ensures |touches| == 1 ==> touchIDs == [touches[0].identifier] && touchCoords == [Position(touches[0])]
      ensures |touches| <= 1 ==> !mouseIsDown
      ensures |touches| == 0 ==> touchIDs == [] && touchCoords == [] && resolutionScaling == 1.0 && Sized()
                                 && settings == AutoIterations(old(settings), math, scaling)
      ensures |touches| != 0 ==> resolutionScaling == old(resolutionScaling) && settings == old(settings)
                                 && canvasWidth == old(canvasWidth) && canvasHeight == old(canvasHeight)
    {
      if |touches| > 1 {
        RecordTouches(touches);
        return;
      }
      if |touches| == 1 {
        touchIDs := [touches[0].identifier];
        touchCoords := [Position(touches[0])];
      }
      if |touches| == 0 {
        touchIDs := [];
        touchCoords := [];
        mouseIsDown := false;
        resolutionScaling := 1.0;
        SetCanvasSize();
        SetAutoIterations();
        assert Sized();
      }
      mouseIsDown := false;
    }

    /** `processMultiTouchGesture`: zoom about the midpoint of the old and new
        finger centres by the square root of the change in separation, then move
        by the centre's movement times that factor. */
    method ProcessMultiTouchGesture(oldCoords: seq<Point>, newCoords: seq<Point>)
      requires Valid() && CanvasNonEmpty() && 2 <= |oldCoords| && 2 <= |newCoords|
      requires 0.0 < Dist2(oldCoords[0], oldCoords[1]) && 0.0 < Dist2(newCoords[0], newCoords[1])
      modifies this`scaling, this`offsetX, this`offsetY
      ensures Valid()
      ensures var factor := PinchFactor(math, oldCoords[0], oldCoords[1], newCoords[0], newCoords[1]);
              CurrentView() == PinchView(old(CurrentView()), CurrentFrame(), factor,
                                         oldCoords[0], oldCoords[1], newCoords[0], newCoords[1])
    {
      var oldCenter := Midpoint(oldCoords[0], oldCoords[1]);
      var newCenter := Midpoint(newCoords[0], newCoords[1]);
      var scalingFactor := PinchFactor(math, oldCoords[0], oldCoords[1], newCoords[0], newCoords[1]);
      PinchFactorValues(math, oldCoords[0], oldCoords[1], newCoords[0], newCoords[1]);
      var middleCenter := Midpoint(oldCenter, newCenter);
      var toMove := PinchMove(scalingFactor, oldCoords[0], oldCoords[1], newCoords[0], newCoords[1]);
      ScaleAround(scalingFactor, middleCenter.x, middleCenter.y);
      DragBy(toMove.x, toMove.y);
    }

    /** Move the offsets by the plane distance between the client origin and the
        client point `(dx, dy)`, as the touch handlers do. */
    method DragBy(dx: real, dy: real)
      requires Valid() && CanvasNonEmpty()
      modifies this`offsetX, this`offsetY
      ensures Valid()
      ensures CurrentView() == TouchDrag(old(CurrentView()), CurrentFrame(), dx, dy)
    {
      var delta := DragDelta(CurrentView(), CurrentFrame(), dx, dy);
      offsetX := offsetX + delta.r;
      offsetY := offsetY + delta.i;
    }

    /** `touchmove`. Two touches pinch, ordered by the stored first identifier,
        and replace the stored coordinates (the identifiers stay). More than two
        are ignored. One touch drags by its movement from the stored first
        coordinate and becomes the only stored touch. Reading a touch or a stored
        coordinate that is not there throws a `TypeError` before any field
        changes; `thrown` reports it. */
    method HandleTouchMove(touches: seq<Touch>) returns (thrown: bool)
      requires Valid()
      requires (|touches| == 2 && 2 <= |touchCoords|) || (|touches| == 1 && 1 <= |touchCoords|) ==> CanvasNonEmpty()
      requires |touches| == 2 && 2 <= |touchCoords| ==>
                 var pair := OrderTouches(touches, touchIDs);
                 0.0 < Dist2(touchCoords[0], touchCoords[1]) && 0.0 < Dist2(pair[0], pair[1])
      modifies this`scaling, this`offsetX, this`offsetY, this`touchIDs, this`touchCoords
      ensures Valid()
      ensures (|touches| == 2 && 2 <= |old(touchCoords)|) || (|touches| == 1 && 1 <= |old(touchCoords)|) ==> CanvasNonEmpty()
      ensures thrown <==> (|touches| == 2 && |old(touchCoords)| < 2) || |touches| == 0
                          || (|touches| == 1 && |old(touchCoords)| == 0)
      ensures thrown || 2 < |touches| ==>
                CurrentView() == old(CurrentView()) && touchIDs == old(touchIDs) && touchCoords == old(touchCoords)
      ensures !thrown && |touches| == 2 ==>
                var pair := OrderTouches(touches, old(touchIDs));
                var o := old(touchCoords);
                && CurrentView() == PinchView(old(CurrentView()), CurrentFrame(),
                                              PinchFactor(math, o[0], o[1], pair[0], pair[1]), o[0], o[1], pair[0], pair[1])
                && touchCoords == pair && touchIDs == old(touchIDs)
      ensures !thrown && |touches| == 1 ==>
                && CurrentView() == TouchDrag(old(CurrentView()), CurrentFrame(),
                                              touches[0].clientX - old(touchCoords)[0].x,
                                              touches[0].clientY - old(touchCoords)[0].y)
                && touchIDs == [touches[0].identifier] && touchCoords == [Position(touches[0])]
    {
      if |touches| == 2 {
        if |touchCoords| < 2 {
          return true;
        }
        var pair := OrderTouches(touches, touchIDs);
        ProcessMultiTouchGesture(touchCoords, pair);
        touchCoords := pair;
        return false;
      }
      if |touches| > 2 {
        return false;
      }
      if |touches| == 0 || |touchCoords| == 0 {
        return true;
      }
      var movementX := touches[0].clientX - touchCoords[0].x;
      var movementY := touches[0].clientY - touchCoords[0].y;
      DragBy(movementX, movementY);
      touchIDs := [touches[0].identifier];
      touchCoords := [Position(touches[0])];
      return false;
    }

    /** The wheel: zoom about the pointer by `1.001 ** (-deltaY * scrollSense)`,
        drop to low resolution if not already there, and (re)schedule the single
        pending reset to full resolution. */
    method HandleScroll(deltaY: real, clientX: real, clientY: real)
      requires Valid() && CanvasNonEmpty()
      modifies this`scaling, this`offsetX, this`offsetY, this`resolutionScaling,
               this`canvasWidth, this`canvasHeight, this`settlePending
      ensures Valid() && settlePending
      ensures CurrentView() == Viewport.ScaleAround(old(CurrentView()), old(CurrentFrame()),
                                                    ScrollFactor(math, deltaY, settings.scrollSense), clientX, clientY)
      ensures resolutionScaling == settings.lowRes
      ensures old(resolutionScaling) != settings.lowRes ==> Sized()
      ensures old(resolutionScaling) == settings.lowRes ==>
                canvasWidth == old(canvasWidth) && canvasHeight == old(canvasHeight)
    {
      ghost var frame := CurrentFrame();
      var scalingFactor := ScrollFactor(math, deltaY, settings.scrollSense);
      ScaleAround(scalingFactor, clientX, clientY);
      assert CurrentFrame() == frame;
      ghost var zoomed := CurrentView();
      if resolutionScaling != settings.lowRes {
        resolutionScaling := settings.lowRes;
        SetCanvasSize();
      }
      settlePending := true;
      assert CurrentView() == zoomed;
    }

    /** The scheduled reset fires: full resolution, automatic iterations, and
        nothing pending any more. */
    method SettleTimerFires()
      requires Valid() && settlePending
      modifies this`resolutionScaling, this`canvasWidth, this`canvasHeight, this`settings, this`program,
               this`settlePending
      ensures Valid() && !settlePending
      ensures resolutionScaling == 1.0 && Sized()
      ensures settings == AutoIterations(old(settings), math, scaling)
    {
      resolutionScaling := 1.0;
      SetCanvasSize();
      SetAutoIterations();
      assert Sized();
      settlePending := false;
    }

    /** `settingsChanged`: assign the control's field and recompile; the `auto`
        box also applies `setAutoIterations`. */
    method SettingsChanged(ctl: Control, input: Input)
      requires Valid()
      requires ctl.ColorInput? ==> 0 <= ctl.slot < 8 && IsColorValue(input.value)
      modifies this`settings, this`program
      ensures Valid()
      ensures ctl.AutoBox? ==> settings == AutoIterations(Apply(old(settings), ctl, input), math, scaling)
      ensures !ctl.AutoBox? ==> settings == Apply(old(settings), ctl, input)
    {
      match ctl {
        case AutoBox =>
          settings := settings.(autoSetIter := input.checked);
          assert program == Compile(settings);
          SetAutoIterations();
          program := Compile(settings);
          return;
        case InverseBox =>
          settings := settings.(renderInverse := input.checked);
          program := Compile(settings);
          return;
        case GradientBox =>
          settings := settings.(gradient := input.checked);
          program := Compile(settings);
        case ColorInput(k) =>
          settings := settings.(colors := settings.colors[k := input.value]);
          settings := settings.(colorsInt := settings.colorsInt[k := ParseHex(input.value[1..])]);
          program := Compile(settings);
          return;
        case _ =>
      }
      var x := FlooredValue(input);
      var y := RawValue(input);
      match ctl {
        case IterInput => settings := settings.(iterations := x);
        case LowResInput => settings := settings.(lowRes := y);
        case DragSenseInput => settings := settings.(dragSense := y);
        case ScrollSenseInput => settings := settings.(scrollSense := x);
        case BlurInput => settings := settings.(blurValue := x);
        case PeriodInput => settings := settings.(period := y);
        case NumColorsInput => settings := settings.(numColors := x);
        case _ =>
      }
      program := Compile(settings);
    }

    /** The reset button: scaling 1, the set fitted into the current canvas,
        automatic iterations, then full resolution. */
    method ResetViewCommand()
      requires Valid() && CanvasNonEmpty()
      modifies this`scaling, this`offsetX, this`offsetY, this`settings, this`program,
               this`resolutionScaling, this`canvasWidth, this`canvasHeight
      ensures Valid() && scaling == 1.0
      ensures CurrentView() == Viewport.ResetView(View(1.0, old(offsetX), old(offsetY)), old(CurrentFrame()))
      ensures settings == AutoIterations(old(settings), math, 1.0)
      ensures old(settings).autoSetIter ==> settings.iterations == 50.0
      ensures resolutionScaling == 1.0 && Sized()
    {
      scaling := 1.0;
      ResetView();
      SetAutoIterations();
      resolutionScaling := 1.0;
      SetCanvasSize();
    }
  }
}

=== FILE: numerics.dfy ===
/** Numeric building blocks shared by the viewport, the shader and the settings:
    complex points, the JavaScript and GLSL rounding and remainder operators,
    and the runtime's square root and power functions, which are not definable
    over `real` and are therefore supplied from outside with the facts the
    engine relies on. */
module Numerics {

  /** A point of the complex plane, `{ r, i }` in the viewer. */
  datatype Complex = Complex(r: real, i: real)

  /** A point of the screen, `{ x, y }` in the viewer. */
  datatype Point = Point(x: real, y: real)

  /** `Math.sqrt` and the exponent operator `**` of the JavaScript runtime. */
  datatype MathLib = MathLib(sqrt: real -> real, pow: (real, real) -> real)

  /** What the engine assumes of the runtime: `Math.sqrt(x)` and `x ** 0.5` are the
      non-negative square root of a non-negative `x`, and a power of a positive base
      is positive; `1 ** e` is 1. */
  ghost predicate Lawful(m: MathLib) {
    && (forall x :: 0.0 <= x ==> 0.0 <= m.sqrt(x) && m.sqrt(x) * m.sqrt(x) == x)
    && (forall x :: 0.0 <= x ==> 0.0 <= m.pow(x, 0.5) && m.pow(x, 0.5) * m.pow(x, 0.5) == x)
    && (forall b, e :: 0.0 < b ==> 0.0 < m.pow(b, e))
    && (forall e :: m.pow(1.0, e) == 1.0)
  }

  function Min(a: real, b: real): (m: real)
    ensures m <= a && m <= b
    ensures m == a || m == b
  {
    if a <= b then a else b
  }

  function Max(a: real, b: real): (m: real)
    ensures a <= m && b <= m
    ensures m == a || m == b
  {
    if a >= b then a else b
  }

  /** `Math.round`: the nearest integer, halves rounded up. */
  function Round(x: real): (n: int)
    ensures n as real - 0.5 <= x < n as real + 0.5
  {
    (x + 0.5).Floor
  }

  /** Truncation toward zero, as `parseInt` of a decimal and `int(...)` in GLSL do. */
  function Trunc(x: real): (n: int)
    ensures 0.0 <= x ==> 0 <= n && n as real <= x < n as real + 1.0
    ensures x < 0.0 ==> n <= 0 && n as real - 1.0 < x <= n as real
  {
    if x >= 0.0 then x.Floor else -((-x).Floor)
  }

  /** GLSL `mod(x, y)`, defined as `x - y * floor(x / y)`. */
  function GlslMod(x: real, y: real): (m: real)
    requires y != 0.0
    ensures 0.0 < y ==> 0.0 <= m < y
    ensures y < 0.0 ==> y < m <= 0.0
  {
    DivMul(x, y);
    RemainderBounds(x, y, x / y, (x / y).Floor as real);
    x - y * ((x / y).Floor as real)
  }

  /** On integral arguments GLSL `mod` is the Euclidean remainder and the floor of
      the quotient is the integer quotient. */
  lemma GlslModOfInt(n: int, d: int)
    requires 0 < d
    ensures (n as real / d as real).Floor == n / d
    ensures GlslMod(n as real, d as real) == (n % d) as real
  {
    var q, r := n / d, n % d;
    var y := d as real;
    var e := q as real + r as real / y;
    DivMul(r as real, y);
    assert y * e == n as real;
    DivUnique(n as real, y, e);
    DivBounds(r as real, y, 1.0);
    assert e.Floor == q;
  }

  /** Shifting the dividend of a GLSL `mod` by one period does not change it. */
  lemma GlslModPeriodic(x: real, y: real)
    requires 0.0 < y
    ensures GlslMod(x + y, y) == GlslMod(x, y)
  {
    var q := x / y;
    DivMul(x, y);
    assert y * (q + 1.0) == x + y;
    DivUnique(x + y, y, q + 1.0);
    assert ((x + y) / y).Floor == q.Floor + 1;
  }

  /** A value already in `[0, y)` is its own GLSL remainder. */
  lemma GlslModOfSmall(x: real, y: real)
    requires 0.0 < y && 0.0 <= x < y
    ensures GlslMod(x, y) == x
  {
    DivBounds(x, y, 1.0);
    assert (x / y).Floor == 0;
  }

  // Facts of real arithmetic that the solver does not find unaided.

  lemma DivMul(x: real, y: real)
    requires y != 0.0
    ensures y * (x / y) == x
  {
  }

  lemma DivUnique(x: real, y: real, q: real)
    requires y != 0.0 && y * q == x
    ensures x / y == q
  {
  }

  lemma DivBounds(x: real, y: real, c: real)
    requires 0.0 < y && 0.0 <= x < c * y
    ensures 0.0 <= x / y < c
  {
  }

  /** `x` lies in the `floor(x / y)`-th interval of width `y`, at the fraction
      `mod(x, y) / y` of it. */
  lemma FloorInterval(x: real, y: real)
    requires 0.0 < y
    ensures x / y == (x / y).Floor as real + GlslMod(x, y) / y
  {
    var k := (x / y).Floor as real;
    var m := GlslMod(x, y);
    assert m == x - y * k;
    DivMul(x, y);
    DivMul(m, y);
    DivUnique(x, y, k + m / y);
  }

  /** An integer `j` with `j <= q < j + 1` is the only one. */
  lemma FloorUnique(q: real, j: int, k: int)
    requires j as real <= q < (j + 1) as real
    ensures j == k <==> (k as real <= q < (k + 1) as real)
  {
  }

  /** Just below `p`, by at most `p / n`, lies in the last of `n` equal parts. */
  lemma LastInterval(p: real, n: int, e: real)
    requires 0.0 < p && 1 <= n && 0.0 < e <= p / n as real
    ensures 0.0 <= p - e < p
    ensures (n - 1) as real <= (p - e) / (p / n as real) < n as real
  {
    var c := p / n as real;
    DivMul(p, n as real);
    assert c * n as real == p;
    MulLe(1.0, n as real, c);
    var r := e / c;
    DivMul(e, c);
    DivAtMost(e, c, 1.0);
    assert 0.0 < r;
    assert c * (n as real - r) == p - e;
    DivUnique(p - e, c, n as real - r);
  }

  lemma DivAtMost(x: real, y: real, c: real)
    requires 0.0 < y && x <= c * y
    ensures x / y <= c
  {
  }

  lemma MulLe(a: real, b: real, y: real)
    requires 0.0 < y && a <= b
    ensures a * y <= b * y
  {
  }

  lemma MulLt(a: real, b: real, y: real)
    requires 0.0 < y && a < b
    ensures y * a < y * b
  {
  }

  lemma MulBounds(f: real, y: real)
    requires 0.0 <= f < 1.0
    ensures 0.0 < y ==> 0.0 <= y * f < y
    ensures y < 0.0 ==> y < y * f <= 0.0
  {
  }

  lemma RemainderBounds(x: real, y: real, q: real, k: real)
    requires y * q == x && k <= q < k + 1.0
    ensures 0.0 < y ==> 0.0 <= x - y * k < y
    ensures y < 0.0 ==> y < x - y * k <= 0.0
  {
    var f := q - k;
    var m := y * f;
    MulBounds(f, y);
    assert m == y * q - y * k;
    assert m == x - y * k;
  }

  lemma DivBoundsLe(x: real, y: real, c: real)
    requires 0.0 < y && c * y <= x
    ensures c <= x / y
  {
  }

  lemma NegDiv(x: real, u: real)
    requires u != 0.0
    ensures -x / u == -(x / u)
  {
  }

  lemma ZeroProduct(a: real, b: real)
    requires a * b == 0.0 && b != 0.0
    ensures a == 0.0
  {
  }

  lemma NonzeroProduct(a: real, b: real)
    requires a != 0.0 && b != 0.0
    ensures a * b != 0.0
  {
  }

  lemma SquarePos(t: real)
    requires t != 0.0
    ensures 0.0 < t * t
  {
  }

  /** A non-negative square root of a positive number is positive. */
  lemma PositiveRoot(r: real, x: real)
    requires 0.0 <= r && r * r == x
    ensures 0.0 < x ==> 0.0 < r
  {
    assert r == 0.0 ==> r * r == 0.0;
  }

  /** The non-negative square root of 1 is 1. */
  lemma UnitRoot(r: real)
    requires 0.0 <= r && r * r == 1.0
    ensures r == 1.0
  {
    assert (r - 1.0) * (r + 1.0) == 0.0;
    ZeroProduct(r - 1.0, r + 1.0);
  }
}

=== FILE: settings.dfy ===
/** The settings panel of the viewer: the record of tunable values the renderer
    keeps, the controls that feed it, the clamping of numeric inputs to their
    `[min, max]` range and the parsing of colour inputs into packed integers. */
module Settings {
  import opened Numerics
  import Shader

  /** The renderer's tunable values. Numbers are kept as the page keeps them;
      `colors` holds the strings the colour inputs reported, `colorsInt` the packed
      colours the shader embeds. */
  datatype Config = Config(iterations: real, lowRes: real, dragSense: real, scrollSense: real,
                           blurValue: real, autoSetIter: bool, renderInverse: bool,
                           gradient: bool, period: real, numColors: real,
                           colors: seq<string>, colorsInt: seq<int>)

  predicate WellFormed(cfg: Config) {
    |cfg.colors| == 8 && |cfg.colorsInt| == 8
  }

  const DefaultColors: seq<string> :=
    ["ff0000", "ff7f00", "ffff00", "7fff00", "00ff00", "00ff7f", "007fff", "7f007f"]
  const DefaultColorsInt: seq<int> :=
    [0xff0000, 0xff7f00, 0xffff00, 0x7fff00, 0x00ff00, 0x00ff7f, 0x007fff, 0x7f007f]

  /** The values the renderer starts with. */
  function Defaults(): (cfg: Config)
    ensures WellFormed(cfg)
  {
    Config(500.0, 0.5, 1.0, 1.0, 0.0, false, false, true, 0.5, 8.0, DefaultColors, DefaultColorsInt)
  }

  /** The `name` argument of `settingsChanged`: the three check boxes, the eight
      colour inputs (`c1` to `c8` are slots 0 to 7) and the seven numeric inputs. */
  datatype Control =
    | AutoBox | InverseBox | GradientBox
    | ColorInput(slot: int)
    | IterInput | LowResInput | DragSenseInput | ScrollSenseInput | BlurInput | PeriodInput | NumColorsInput

  predicate IsNumeric(ctl: Control) {
    ctl.IterInput? || ctl.LowResInput? || ctl.DragSenseInput? || ctl.ScrollSenseInput?
    || ctl.BlurInput? || ctl.PeriodInput? || ctl.NumColorsInput?
  }

  /** The controls whose stored value is the floored `x` rather than the raw `y`. */
  predicate StoresFloored(ctl: Control) {
    ctl.IterInput? || ctl.ScrollSenseInput? || ctl.BlurInput? || ctl.NumColorsInput?
  }

  /** What `settingsChanged` reads from the input element: `checked`, `value`,
      `valueAsNumber`, and `min` and `max` as numbers. */
  datatype Input = Input(checked: bool, value: string, valueAsNumber: real, min: real, max: real)

  /** Raise a value below `lo` to `lo`, then lower a value above `hi` to `hi`. */
  function Clamp(v: real, lo: real, hi: real): (r: real)
    ensures lo <= hi ==> lo <= r <= hi
    ensures lo <= hi ==> (r == v <==> lo <= v <= hi)
    ensures lo <= hi && v < lo ==> r == lo
    ensures hi < v ==> r == hi
    ensures hi < lo ==> r == hi
  {
    var raised := if v < lo then lo else v;
    if raised > hi then hi else raised
  }

  /** `x`: `Math.floor(valueAsNumber)` clamped between `parseInt(min)` and
      `parseInt(max)`, which truncate the bounds. */
  function FlooredValue(input: Input): (x: real)
    ensures x == x.Floor as real
    ensures Trunc(input.min) <= Trunc(input.max) ==>
              Trunc(input.min) as real <= x <= Trunc(input.max) as real
    ensures Trunc(input.min) as real <= input.valueAsNumber.Floor as real <= Trunc(input.max) as real ==>
              x == input.valueAsNumber.Floor as real
  {
    Clamp(input.valueAsNumber.Floor as real, Trunc(input.min) as real, Trunc(input.max) as real)
  }

  /** `y`: `valueAsNumber` clamped between `parseFloat(min)` and `parseFloat(max)`. */
  function RawValue(input: Input): (y: real)
    ensures input.min <= input.max ==> input.min <= y <= input.max
    ensures input.min <= input.valueAsNumber <= input.max ==> y == input.valueAsNumber
  {
    Clamp(input.valueAsNumber, input.min, input.max)
  }

  /** The value a numeric control stores. */
  function StoredValue(ctl: Control, input: Input): real {
    if StoresFloored(ctl) then FlooredValue(input) else RawValue(input)
  }

  /** The field a numeric control is bound to. */
  function Reading(cfg: Config, ctl: Control): real
    requires IsNumeric(ctl)
  {
    match ctl
    case IterInput => cfg.iterations
    case LowResInput => cfg.lowRes
    case DragSenseInput => cfg.dragSense
    case ScrollSenseInput => cfg.scrollSense
    case BlurInput => cfg.blurValue
    case PeriodInput => cfg.period
    case NumColorsInput => cfg.numColors
  }

  // Colour inputs report `#rrggbb`; `parseInt(value.slice(1), 16)` reads the digits.

  function HexDigit(ch: char): (d: int)
    ensures -1 <= d < 16
  {
    if '0' <= ch <= '9' then ch as int - '0' as int
    else if 'a' <= ch <= 'f' then ch as int - 'a' as int + 10
    else if 'A' <= ch <= 'F' then ch as int - 'A' as int + 10
    else -1
  }

  predicate AllHex(s: string) {
    forall k :: 0 <= k < |s| ==> HexDigit(s[k]) >= 0
  }

  /** The value of an `<input type="color">`: `#` and six hexadecimal digits. */
  predicate IsColorValue(s: string) {
    |s| == 7 && s[0] == '#' && AllHex(s[1..])
  }

  function Pow16(n: nat): (p: nat)
    ensures 1 <= p
  {
    if n == 0 then 1 else 16 * Pow16(n - 1)
  }

  /** `parseInt(s, 16)` of a string of hexadecimal digits, most significant first. */
  function ParseHex(s: string): (n: int)
    requires AllHex(s)
    ensures 0 <= n < Pow16(|s|)
  {
    if |s| == 0 then 0
    else
      assert AllHex(s[..|s| - 1]);
      ParseHex(s[..|s| - 1]) * 16 + HexDigit(s[|s| - 1])
  }

  /** A colour input's value parses to a packed `0xRRGGBB` colour. */
  lemma ColorValuePacked(s: string)
    requires IsColorValue(s)
    ensures Shader.PackedColor(ParseHex(s[1..]))
  {
    assert Pow16(6) == 0x100_0000;
  }

  /** The lower-case digit of a value below 16, as colour inputs write it. */
  function HexChar(d: int): (ch: char)
    requires 0 <= d < 16
    ensures HexDigit(ch) == d
  {
    if d < 10 then ('0' as int + d) as char else ('a' as int + d - 10) as char
  }

  /** The `width` low hexadecimal digits of `n`, most significant first. */
  function ToHex(n: nat, width: nat): (s: string)
    ensures |s| == width && AllHex(s)
  {
    if width == 0 then [] else ToHex(n / 16, width - 1) + [HexChar(n % 16)]
  }

  /** Writing a value as digits and parsing it back keeps it, when it fits. */
  lemma {:induction false} ParseToHex(n: nat, width: nat)
    requires n < Pow16(width)
    ensures ParseHex(ToHex(n, width)) == n
  {
    if width > 0 {
      var s := ToHex(n, width);
      assert s[..|s| - 1] == ToHex(n / 16, width - 1);
      ParseToHex(n / 16, width - 1);
    }
  }

  /** Parsing one more digit of a prefix shifts the value by one digit. */
  lemma ParsePrefix(s: string, k: int)
    requires AllHex(s) && 0 < k <= |s|
    ensures AllHex(s[..k]) && AllHex(s[..k - 1])
    ensures ParseHex(s[..k]) == ParseHex(s[..k - 1]) * 16 + HexDigit(s[k - 1])
  {
    assert s[..k][..k - 1] == s[..k - 1];
  }

  /** Six digits, written out positionally. */
  lemma ParseSix(s: string)
    requires |s| == 6 && AllHex(s)
    ensures ParseHex(s) == ((((HexDigit(s[0]) * 16 + HexDigit(s[1])) * 16 + HexDigit(s[2])) * 16
                             + HexDigit(s[3])) * 16 + HexDigit(s[4])) * 16 + HexDigit(s[5])
  {
    assert s[..0] == [];
    ParsePrefix(s, 1);
    ParsePrefix(s, 2);
    ParsePrefix(s, 3);
    ParsePrefix(s, 4);
    ParsePrefix(s, 5);
    ParsePrefix(s, 6);
    assert s[..6] == s;
  }

  /** The initial colour strings and packed colours describe the same palette. */
  lemma DefaultPaletteAgrees()
    ensures forall k :: 0 <= k < 8 ==> AllHex(DefaultColors[k]) && ParseHex(DefaultColors[k]) == DefaultColorsInt[k]
  {
    forall k | 0 <= k < 8
      ensures AllHex(DefaultColors[k]) && ParseHex(DefaultColors[k]) == DefaultColorsInt[k]
    {
      ParseSix(DefaultColors[k]);
    }
  }

  /** The field assignment `settingsChanged` makes for a control; the `auto` box
      goes on to `setAutoIterations`, which the renderer applies. The `gradient`
      box falls through into the numeric code, which assigns nothing for it. */
  function Apply(cfg: Config, ctl: Control, input: Input): (r: Config)
    requires WellFormed(cfg)
    requires ctl.ColorInput? ==> 0 <= ctl.slot < 8 && IsColorValue(input.value)
    ensures WellFormed(r)
  {
    match ctl
    case AutoBox => cfg.(autoSetIter := input.checked)
    case InverseBox => cfg.(renderInverse := input.checked)
    case GradientBox => cfg.(gradient := input.checked)
    case ColorInput(k) =>
      cfg.(colors := cfg.colors[k := input.value],
           colorsInt := cfg.colorsInt[k := ParseHex(input.value[1..])])
    case IterInput => cfg.(iterations := FlooredValue(input))
    case LowResInput => cfg.(lowRes := RawValue(input))
    case DragSenseInput => cfg.(dragSense := RawValue(input))
    case ScrollSenseInput => cfg.(scrollSense := FlooredValue(input))
    case BlurInput => cfg.(blurValue := FlooredValue(input))
    case PeriodInput => cfg.(period := RawValue(input))
    case NumColorsInput => cfg.(numColors := FlooredValue(input))
  }

  /** A numeric control stores its clamped value in its own field and leaves every
      other numeric field, the check boxes and the palette as they were. */
  lemma ApplyNumeric(cfg: Config, ctl: Control, input: Input)
    requires WellFormed(cfg) && IsNumeric(ctl)
    ensures Reading(Apply(cfg, ctl, input), ctl) == StoredValue(ctl, input)
    ensures forall other :: IsNumeric(other) && other != ctl ==>
              Reading(Apply(cfg, ctl, input), other) == Reading(cfg, other)
    ensures var r := Apply(cfg, ctl, input);
            r.autoSetIter == cfg.autoSetIter && r.renderInverse == cfg.renderInverse
            && r.gradient == cfg.gradient && r.colors == cfg.colors && r.colorsInt == cfg.colorsInt
  {
  }

  /** A colour control changes its own slot, in both the strings and the packed
      colours, to a packed colour, and nothing else. */
  lemma ApplyColor(cfg: Config, k: int, input: Input)
    requires WellFormed(cfg) && 0 <= k < 8 && IsColorValue(input.value)
    ensures var r := Apply(cfg, ColorInput(k), input);
            && r.colors[k] == input.value && r.colorsInt[k] == ParseHex(input.value[1..])
            && Shader.PackedColor(r.colorsInt[k])
            && (forall j :: 0 <= j < 8 && j != k ==> r.colors[j] == cfg.colors[j] && r.colorsInt[j] == cfg.colorsInt[j])
            && r.(colors := cfg.colors, colorsInt := cfg.colorsInt) == cfg
  {
    ColorValuePacked(input.value);
  }

  /** A check box sets its own flag to `checked` and nothing else. */
  lemma ApplyFlag(cfg: Config, ctl: Control, input: Input)
    requires WellFormed(cfg) && (ctl.AutoBox? || ctl.InverseBox? || ctl.GradientBox?)
    ensures var r := Apply(cfg, ctl, input);
            && (ctl.AutoBox? ==> r == cfg.(autoSetIter := input.checked))
            && (ctl.InverseBox? ==> r == cfg.(renderInverse := input.checked))
            && (ctl.GradientBox? ==> r == cfg.(gradient := input.checked))
  {
  }

  /** `setAutoIterations`: with the auto box ticked, `scaling ** 0.25 * 50`
      iterations; otherwise nothing changes. */
  function AutoIterations(cfg: Config, m: MathLib, scaling: real): (r: Config)
    requires Lawful(m) && 0.0 < scaling
    ensures !cfg.autoSetIter ==> r == cfg
    ensures cfg.autoSetIter ==> 0.0 < r.iterations && r == cfg.(iterations := r.iterations)
    ensures cfg.autoSetIter ==> r.iterations == m.pow(scaling, 0.25) * 50.0
  {
    if !cfg.autoSetIter then cfg else cfg.(iterations := m.pow(scaling, 0.25) * 50.0)
  }

  /** At scaling 1, where the reset button puts the view, the automatic count is
      `1 ** 0.25 * 50 = 50` iterations. */
  lemma AutoIterationsAtUnitScale(cfg: Config, m: MathLib)
    requires Lawful(m)
    ensures cfg.autoSetIter ==> AutoIterations(cfg, m, 1.0).iterations == 50.0
  {
  }

  /** The shader program compiled from the settings. */
  function Compile(cfg: Config): (src: Shader.RenderSource)
    requires WellFormed(cfg)
    ensures src.maxIter as real - 0.5 <= cfg.iterations < src.maxIter as real + 0.5
    ensures src.numColors as real - 0.5 <= cfg.numColors < src.numColors as real + 0.5
    ensures src.inverse == cfg.renderInverse && src.gradient == cfg.gradient
    ensures src.period == cfg.period && src.palette == cfg.colorsInt
  {
    Shader.GetRenderSource(cfg.iterations, cfg.gradient, cfg.period, cfg.numColors, cfg.colorsInt, cfg.renderInverse)
  }
}

=== FILE: shader.dfy ===
/** The fragment shader that `getRenderSource` writes out as text: the choice of
    escape loop, the literals embedded into the template, the two loops the
    shader runs per pixel, the palette lookup of `getRGB` and the decoding of a
    packed `0xRRGGBB` colour. The shader's `float` arithmetic is modelled over
    `real`, its `int` arithmetic over `int`. */
module Shader {
  import opened Numerics
  import opened Viewport

  /** One Mandelbrot step `z := z * z + c`, written as the shader does with `oldR`. */
  function Step(z: Complex, c: Complex): (w: Complex)
    ensures c == Complex(0.0, 0.0) ==> Mag2(w) == Mag2(z) * Mag2(z)
  {
    Complex(z.r * z.r - z.i * z.i + c.r, 2.0 * z.r * z.i + c.i)
  }

  /** `z` after `n` steps from `z = 0`. */
  function Orbit(c: Complex, n: nat): (z: Complex)
    ensures n == 1 ==> z == c
    ensures c == Complex(0.0, 0.0) ==> z == Complex(0.0, 0.0)
  {
    if n == 0 then Complex(0.0, 0.0) else Step(Orbit(c, n - 1), c)
  }

  /** `zR * zR + zI * zI`, the squared modulus the loops compare. */
  function Mag2(z: Complex): real {
    z.r * z.r + z.i * z.i
  }

  predicate Escaped(c: Complex, n: nat) {
    Mag2(Orbit(c, n)) > 4.0
  }

  /** The first step in `from..bound` whose squared modulus exceeds 4, or
      `bound + 1` (at least `from`) when there is none. */
  function EscapeIndex(c: Complex, from: nat, bound: int): (k: nat)
    decreases bound - from
    ensures from <= k && (k <= bound || k == from || k == bound + 1)
    ensures k <= bound ==> Escaped(c, k)
    ensures forall j: nat :: from <= j < k && j <= bound ==> !Escaped(c, j)
  {
    if from > bound then from
    else if Escaped(c, from) then from
    else EscapeIndex(c, from + 1, bound)
  }

  /** The value of `iter` after the standard loop: the first escaping step, or
      `maxIter` when no step before `maxIter` escapes. */
  function StandardIter(c: Complex, maxIter: int): (iter: int)
    requires 1 <= maxIter
    ensures 1 <= iter <= maxIter
  {
    var k := EscapeIndex(c, 1, maxIter);
    if k < maxIter then k else maxIter
  }

  /** The standard loop stops at the first escaping step and reports `maxIter`
      when no earlier step escapes; an escape at exactly `maxIter` is
      indistinguishable from staying bounded. */
  lemma StandardIterMeaning(c: Complex, maxIter: int)
    requires 1 <= maxIter
    ensures 1 <= StandardIter(c, maxIter) <= maxIter
    ensures StandardIter(c, maxIter) < maxIter ==> Escaped(c, StandardIter(c, maxIter))
    ensures forall j: nat :: 1 <= j < StandardIter(c, maxIter) ==> !Escaped(c, j)
    ensures StandardIter(c, maxIter) == maxIter <==> forall j: nat :: 1 <= j < maxIter ==> !Escaped(c, j)
  {
    var k := EscapeIndex(c, 1, maxIter);
    if k < maxIter {
      assert StandardIter(c, maxIter) == k;
    } else {
      assert StandardIter(c, maxIter) == maxIter;
    }
  }

  /** The largest squared modulus seen in the first `n` steps, starting from 0:
      the `result` the inverse loop keeps. */
  function RunningMax(c: Complex, n: nat): (m: real)
    ensures 0.0 <= m
    ensures forall j: nat :: 1 <= j <= n ==> Mag2(Orbit(c, j)) <= m
  {
    if n == 0 then 0.0 else Max(RunningMax(c, n - 1), Mag2(Orbit(c, n)))
  }

  /** The running maximum is the least bound: it never exceeds a non-negative
      bound of every squared modulus it has seen. */
  lemma {:induction false} RunningMaxLeast(c: Complex, n: nat, bound: real)
    requires 0.0 <= bound && forall j: nat :: 1 <= j <= n ==> Mag2(Orbit(c, j)) <= bound
    ensures RunningMax(c, n) <= bound
  {
    if n > 0 {
      RunningMaxLeast(c, n - 1, bound);
    }
  }

  /** The standard loop of the template: `for (i = 1; i <= maxIter; i++)`, with
      `iter = i` and a break once the squared modulus exceeds 4. GLSL leaves
      `iter` undefined when the loop does not run, hence `1 <= maxIter`. */
  method StandardEscape(c: Complex, maxIter: int) returns (iter: int)
    requires 1 <= maxIter
    ensures iter == StandardIter(c, maxIter)
  {
    var z := Complex(0.0, 0.0);
    var i := 1;
    iter := 0;
    while i <= maxIter
      invariant 1 <= i <= maxIter + 1
      invariant z == Orbit(c, i - 1)
      invariant iter == i - 1
      invariant i <= EscapeIndex(c, 1, maxIter)
    {
      z := Step(z, c);
      iter := i;
      if Mag2(z) > 4.0 {
        assert Escaped(c, i);
        return;
      }
      assert !Escaped(c, i);
      i := i + 1;
    }
  }

  /** The inverse loop of the template: `Math.round(iterations)` steps keeping the
      running maximum of the squared modulus in `result`, stopping with
      `bounded = 0` once that maximum exceeds 4. */
  method InverseEscape(c: Complex, maxIter: int) returns (result: real, bounded: bool)
    ensures bounded <==> forall j: nat :: 1 <= j <= maxIter ==> !Escaped(c, j)
    ensures bounded ==> result == RunningMax(c, if maxIter < 0 then 0 else maxIter) && result <= 4.0
    ensures !bounded ==> 1 <= EscapeIndex(c, 1, maxIter) <= maxIter
                         && result == Mag2(Orbit(c, EscapeIndex(c, 1, maxIter))) && 4.0 < result
  {
    var z := Complex(0.0, 0.0);
    result := 0.0;
    bounded := true;
    var i := 0;
    while i < maxIter
      invariant 0 <= i <= (if maxIter < 0 then 0 else maxIter)
      invariant z == Orbit(c, i)
      invariant result == RunningMax(c, i) && result <= 4.0
      invariant i < EscapeIndex(c, 1, maxIter)
    {
      z := Step(z, c);
      if Mag2(z) > result {
        result := Mag2(z);
        if result > 4.0 {
          bounded := false;
          assert Escaped(c, i + 1);
          return;
        }
      }
      assert !Escaped(c, i + 1);
      i := i + 1;
    }
  }

  /** A colour with channels as the shader's `vec3`. */
  datatype Rgb = Rgb(r: real, g: real, b: real)

  /** The parameters `getRenderSource` embeds into the shader text: the loop it
      chooses, `Math.round(iterations)`, the gradient flag, the period,
      `Math.round(numColors)` and the eight packed palette colours. */
  datatype RenderSource = RenderSource(inverse: bool, maxIter: int, gradient: bool,
                                       period: real, numColors: int, palette: seq<int>)

  /** `getRenderSource`, structurally: which body is spliced in and which
      literals are embedded. */
  function GetRenderSource(iterations: real, gradient: bool, period: real, numColors: real,
                           colors: seq<int>, inverse: bool): (src: RenderSource)
    requires |colors| == 8
    ensures src.maxIter as real - 0.5 <= iterations < src.maxIter as real + 0.5
    ensures src.numColors as real - 0.5 <= numColors < src.numColors as real + 0.5
    ensures src.palette == colors && src.inverse == inverse && src.gradient == gradient && src.period == period
  {
    RenderSource(inverse, Round(iterations), gradient, period, Round(numColors), colors)
  }

  /** A packed colour `0xRRGGBB` as the shader holds it in an `int`. */
  predicate PackedColor(c: int) {
    0 <= c <= 0xFF_FFFF
  }

  predicate ValidPalette(p: seq<int>) {
    |p| == 8 && forall k :: 0 <= k < 8 ==> PackedColor(p[k])
  }

  /** What a shader built from `src` can draw with: a positive period, at least one
      colour, and eight packed colours. */
  predicate Renderable(src: RenderSource) {
    0.0 < src.period && 1 <= src.numColors && ValidPalette(src.palette)
  }

  /** The three channels of a packed colour, `float(c / 65536)`,
      `mod(float(c / 256), 256.0)` and `mod(float(c), 256.0)`, each divided by 255. */
  function Decode(c: int): (col: Rgb)
    requires 0 <= c
    ensures col == Rgb((c / 65536) as real / 255.0, ((c / 256) % 256) as real / 255.0, (c % 256) as real / 255.0)
  {
    GlslModOfInt(c / 256, 256);
    GlslModOfInt(c, 256);
    Rgb((c / 65536) as real / 255.0,
        GlslMod((c / 256) as real, 256.0) / 255.0,
        GlslMod(c as real, 256.0) / 255.0)
  }

  /** The bytes of a packed colour lie in `[0, 255]` and recombine to the colour,
      so each decoded channel lies in `[0, 1]`. */
  lemma DecodeBytes(c: int)
    requires PackedColor(c)
    ensures 0 <= c / 65536 <= 255 && 0 <= (c / 256) % 256 <= 255 && 0 <= c % 256 <= 255
    ensures (c / 65536) * 65536 + ((c / 256) % 256) * 256 + c % 256 == c
    ensures UnitRgb(Decode(c))
  {
    var hi, lo := c / 256, c % 256;
    assert c == hi * 256 + lo;
    assert hi == (hi / 256) * 256 + hi % 256;
    assert hi / 256 == c / 65536;
  }

  predicate UnitRgb(col: Rgb) {
    0.0 <= col.r <= 1.0 && 0.0 <= col.g <= 1.0 && 0.0 <= col.b <= 1.0
  }

  /** The two palette slots and the blend position `getRGB` derives from `result`. */
  datatype Segment = Segment(lower: int, upper: int, t: real)

  /** `x = mod(result, period)`, `i1 = int(floor(x / cpp))`,
      `i2 = int(mod(float(i1 + 1), numColors))` and `mod(x, cpp) / cpp`, with
      `cpp = period / numColors` the length of one colour segment. */
  function PaletteSegment(result: real, period: real, numColors: int): (s: Segment)
    requires 0.0 < period && 1 <= numColors
    ensures 0 <= s.lower < numColors && 0 <= s.upper < numColors
    ensures s.upper == (s.lower + 1) % numColors
    ensures 0.0 <= s.t < 1.0
    ensures var cpp := period / numColors as real;
            var x := GlslMod(result, period);
            s.lower as real <= x / cpp < (s.lower + 1) as real && x / cpp == s.lower as real + s.t
  {
    var nc := numColors as real;
    var cpp := period / nc;
    var x := GlslMod(result, period);
    DivMul(period, nc);
    DivBounds(x, cpp, nc);
    var q := x / cpp;
    var i1 := q.Floor;
    GlslModOfInt(i1 + 1, numColors);
    var i2 := Trunc(GlslMod((i1 + 1) as real, nc));
    DivBounds(GlslMod(x, cpp), cpp, 1.0);
    FloorInterval(x, cpp);
    assert i1 as real <= q < (i1 + 1) as real;
    Segment(i1, i2, GlslMod(x, cpp) / cpp)
  }

  /** Shifting `result` by a whole period picks the same segment. */
  lemma PaletteSegmentPeriodic(result: real, period: real, numColors: int)
    requires 0.0 < period && 1 <= numColors
    ensures PaletteSegment(result + period, period, numColors) == PaletteSegment(result, period, numColors)
  {
    GlslModPeriodic(result, period);
  }

  /** The segment is the `k`-th exactly when `mod(result, period)` lies in the
      `k`-th of the `numColors` equal parts of the period. */
  lemma PaletteSegmentIndex(result: real, period: real, numColors: int, k: int)
    requires 0.0 < period && 1 <= numColors
    ensures PaletteSegment(result, period, numColors).lower == k <==>
              (k as real <= GlslMod(result, period) / (period / numColors as real) < (k + 1) as real)
  {
    FloorUnique(GlslMod(result, period) / (period / numColors as real), PaletteSegment(result, period, numColors).lower, k);
  }

  /** A result of 0 starts at slot 0 with no blend, and so does a result one whole
      period on. */
  lemma PaletteSegmentAtZero(period: real, numColors: int)
    requires 0.0 < period && 1 <= numColors
    ensures PaletteSegment(0.0, period, numColors) == Segment(0, 1 % numColors, 0.0)
    ensures PaletteSegment(period, period, numColors) == Segment(0, 1 % numColors, 0.0)
  {
    var cpp := period / numColors as real;
    GlslModOfSmall(0.0, period);
    assert GlslMod(0.0, period) / cpp == 0.0;
    PaletteSegmentIndex(0.0, period, numColors, 0);
    PaletteSegmentPeriodic(0.0, period, numColors);
    assert 0.0 + period == period;
  }

  /** Up to one colour width below a whole period the blend runs from the last slot
      back to slot 0. */
  lemma PaletteSegmentWraps(period: real, numColors: int, e: real)
    requires 0.0 < period && 1 <= numColors
    requires 0.0 < e <= period / numColors as real
    ensures PaletteSegment(period - e, period, numColors).lower == numColors - 1
    ensures PaletteSegment(period - e, period, numColors).upper == 0
  {
    LastInterval(period, numColors, e);
    GlslModOfSmall(period - e, period);
    PaletteSegmentIndex(period - e, period, numColors, numColors - 1);
    assert (numColors - 1 + 1) % numColors == 0;
  }

  /** The chained `if (i == 0) ... else if (i == 7)` lookup of `getRGB`: slot `i`
      when it is one of the eight, otherwise the slot the variable was
      initialised from. */
  function Slot(palette: seq<int>, i: int, fallback: int): (c: int)
    requires |palette| == 8 && 0 <= fallback < 8
    ensures 0 <= i < 8 ==> c == palette[i]
    ensures !(0 <= i < 8) ==> c == palette[fallback]
  {
    if i == 0 then palette[0] else if i == 1 then palette[1]
    else if i == 2 then palette[2] else if i == 3 then palette[3]
    else if i == 4 then palette[4] else if i == 5 then palette[5]
    else if i == 6 then palette[6] else if i == 7 then palette[7]
    else palette[fallback]
  }

  /** `a + t * (b - a)`. */
  function Lerp(a: real, b: real, t: real): (x: real)
    ensures 0.0 <= t <= 1.0 && 0.0 <= a <= 1.0 && 0.0 <= b <= 1.0 ==> 0.0 <= x <= 1.0
    ensures t == 0.0 ==> x == a
  {
    LerpBounds(a, b, t);
    a + t * (b - a)
  }

  lemma LerpBounds(a: real, b: real, t: real)
    ensures 0.0 <= t <= 1.0 && 0.0 <= a <= 1.0 && 0.0 <= b <= 1.0 ==> 0.0 <= a + t * (b - a) <= 1.0
  {
    if 0.0 <= t <= 1.0 && 0.0 <= a <= 1.0 && 0.0 <= b <= 1.0 {
      assert a + t * (b - a) == (1.0 - t) * a + t * b;
      assert 0.0 <= (1.0 - t) * a <= 1.0 - t;
      assert 0.0 <= t * b <= t;
    }
  }

  /** `getRGB(result)`: the colour between the two palette slots of the segment
      `result` falls into, or the lower slot's colour without the gradient. */
  function GetRGB(src: RenderSource, result: real): (col: Rgb)
    requires Renderable(src)
    ensures UnitRgb(col)
  {
    var s := PaletteSegment(result, src.period, src.numColors);
    var c1 := Slot(src.palette, s.lower, 0);
    var c2 := Slot(src.palette, s.upper, 1);
    DecodeBytes(c1);
    DecodeBytes(c2);
    var a, b := Decode(c1), Decode(c2);
    if src.gradient then Rgb(Lerp(a.r, b.r, s.t), Lerp(a.g, b.g, s.t), Lerp(a.b, b.b, s.t))
    else a
  }

  /** With at most eight colours every segment reads its own slot: without the
      gradient the colour is exactly the lower slot's, and with it the blend
      starts at the lower slot and heads for the next one, wrapping round. */
  lemma GetRGBSlots(src: RenderSource, result: real)
    requires Renderable(src) && src.numColors <= 8
    ensures var s := PaletteSegment(result, src.period, src.numColors);
            && !src.gradient ==> GetRGB(src, result) == Decode(src.palette[s.lower])
    ensures var s := PaletteSegment(result, src.period, src.numColors);
            var a, b := Decode(src.palette[s.lower]), Decode(src.palette[(s.lower + 1) % src.numColors]);
            src.gradient ==> GetRGB(src, result) == Rgb(Lerp(a.r, b.r, s.t), Lerp(a.g, b.g, s.t), Lerp(a.b, b.b, s.t))
  {
  }

  /** Periodicity of the colouring: results a period apart get the same colour. */
  lemma GetRGBPeriodic(src: RenderSource, result: real)
    requires Renderable(src)
    ensures GetRGB(src, result + src.period) == GetRGB(src, result)
  {
    PaletteSegmentPeriodic(result, src.period, src.numColors);
  }

  /** What the shader does with a pixel: paint it black, or colour it by
      `getRGB(result * 15.0)`. */
  datatype Outcome = Black | Colored(result: real)

  /** The decision the template's tail makes. The standard body paints black the
      points whose `iter` reached `maxIter` and colours the others by
      `iter / 1000`; the inverse body paints black the points that escaped and
      colours the others by the running maximum. */
  function PixelOutcome(src: RenderSource, c: Complex): (o: Outcome)
    requires src.inverse || 1 <= src.maxIter
    ensures o.Colored? ==> 0.0 <= o.result
    ensures !src.inverse && o.Colored? ==> 1.0 / 1000.0 <= o.result < src.maxIter as real / 1000.0
  {
    if src.inverse then
      if forall j: nat :: 1 <= j <= src.maxIter ==> !Escaped(c, j)
      then Colored(RunningMax(c, if src.maxIter < 0 then 0 else src.maxIter))
      else Black
    else
      var iter := StandardIter(c, src.maxIter);
      if iter == src.maxIter then Black else Colored(iter as real / 1000.0)
  }

  /** The standard body: a point is black exactly when none of its first
      `maxIter - 1` steps escapes; otherwise it is coloured by `k / 1000` for its
      first escaping step `k`. */
  lemma StandardOutcome(src: RenderSource, c: Complex)
    requires !src.inverse && 1 <= src.maxIter
    ensures PixelOutcome(src, c) == Black <==> forall j: nat :: 1 <= j < src.maxIter ==> !Escaped(c, j)
    ensures PixelOutcome(src, c).Colored? ==>
              exists k: nat :: 1 <= k < src.maxIter && PixelOutcome(src, c).result == k as real / 1000.0
                               && Escaped(c, k) && forall j: nat :: 1 <= j < k ==> !Escaped(c, j)
  {
    StandardIterMeaning(c, src.maxIter);
    var k := StandardIter(c, src.maxIter);
    if k < src.maxIter {
      assert PixelOutcome(src, c).result == k as real / 1000.0;
    }
  }

  /** The inverse body: a point is black exactly when one of its first `maxIter`
      steps escapes; otherwise it is coloured by the largest squared modulus it
      reached, which lies in `[0, 4]`. */
  lemma InverseOutcome(src: RenderSource, c: Complex)
    requires src.inverse
    ensures PixelOutcome(src, c) == Black <==> exists j: nat :: 1 <= j <= src.maxIter && Escaped(c, j)
    ensures PixelOutcome(src, c).Colored? ==> 0.0 <= PixelOutcome(src, c).result <= 4.0
  {
    var n := if src.maxIter < 0 then 0 else src.maxIter;
    if forall j: nat :: 1 <= j <= src.maxIter ==> !Escaped(c, j) {
      forall j: nat | 1 <= j <= n
        ensures Mag2(Orbit(c, j)) <= 4.0
      {
        assert !Escaped(c, j);
      }
      RunningMaxLeast(c, n, 4.0);
    }
  }

  /** The colour of an outcome: opaque black, or `getRGB(result * 15.0)`. */
  function OutcomeColor(src: RenderSource, o: Outcome): (col: Rgb)
    requires Renderable(src)
    ensures UnitRgb(col)
    ensures o == Black ==> col == Rgb(0.0, 0.0, 0.0)
  {
    match o
    case Black => Rgb(0.0, 0.0, 0.0)
    case Colored(result) => GetRGB(src, result * 15.0)
  }

  /** `main()` of the shader for the fragment at `(fx, fy)`: map it to the plane,
      run the chosen loop and colour the outcome. */
  method Shade(src: RenderSource, v: View, f: Frame, fx: real, fy: real) returns (col: Rgb)
    requires Renderable(src) && Drawable(v, f) && (src.inverse || 1 <= src.maxIter)
    ensures col == OutcomeColor(src, PixelOutcome(src, FragToPlane(v, f, fx, fy)))
  {
    var c := FragToPlane(v, f, fx, fy);
    if src.inverse {
      var result, bounded := InverseEscape(c, src.maxIter);
      if !bounded {
        col := Rgb(0.0, 0.0, 0.0);
      } else {
        col := GetRGB(src, result * 15.0);
      }
    } else {
      var iter := StandardEscape(c, src.maxIter);
      if iter == src.maxIter {
        col := Rgb(0.0, 0.0, 0.0);
      } else {
        col := GetRGB(src, (iter as real / 1000.0) * 15.0);
      }
    }
  }
}

=== FILE: viewport.dfy ===
/** The viewport algebra of the viewer: the map from screen pixels to the complex
    plane, the per-pixel map the fragment shader applies, anchored zoom, drag
    translation, the two-finger pinch and the initial fit. Every operation is an
    affine map on `scaling`, `offsetX` and `offsetY`, modelled over `real`. */
module Viewport {
  import opened Numerics

  /** The aspect-correction constants shared by the page script and the shader. */
  const ScreenXRatio: real := 1.3
  const ScreenYRatio: real := 1.1

  /** Zoom level and placement of the plane: the `scaling` and `offsets` uniforms. */
  datatype View = View(scaling: real, offsetX: real, offsetY: real)

  /** The canvas backing store in device pixels and the effective device pixel
      ratio that maps client pixels onto it. */
  datatype Frame = Frame(width: real, height: real, dpr: real)

  /** The transforms divide by `scaling` and by the unit length of the canvas. */
  predicate Drawable(v: View, f: Frame) {
    v.scaling != 0.0 && 0.0 < f.width && 0.0 < f.height
  }

  /** The device pixel ratio used for the backing store: `devicePixelRatio || 1`,
      halved while throttled in inverse mode, times the resolution scaling. */
  function EffectiveDpr(devicePixelRatio: real, resolutionScaling: real, lowRes: real, renderInverse: bool): (d: real)
    ensures 0.0 <= devicePixelRatio && 0.0 < resolutionScaling ==> 0.0 < d
    ensures resolutionScaling == 1.0 && !(renderInverse && lowRes == 1.0) ==>
              d == (if devicePixelRatio == 0.0 then 1.0 else devicePixelRatio)
    ensures renderInverse && resolutionScaling == lowRes ==>
              2.0 * d == (if devicePixelRatio == 0.0 then 1.0 else devicePixelRatio) * resolutionScaling
    ensures !(renderInverse && resolutionScaling == lowRes) ==>
              d == (if devicePixelRatio == 0.0 then 1.0 else devicePixelRatio) * resolutionScaling
  {
    var base := if devicePixelRatio == 0.0 then 1.0 else devicePixelRatio;
    var halved := if resolutionScaling == lowRes && renderInverse then base * 0.5 else base;
    halved * resolutionScaling
  }

  /** The length of one plane unit in device pixels, `min(w / 1.3, h / 1.1)`. */
  function Unit(f: Frame): (u: real)
    ensures u <= f.width / ScreenXRatio && u <= f.height / ScreenYRatio
    ensures u == f.width / ScreenXRatio || u == f.height / ScreenYRatio
    ensures 0.0 < f.width && 0.0 < f.height ==> 0.0 < u
  {
    Min(f.width / ScreenXRatio, f.height / ScreenYRatio)
  }

  /** Plane units per client pixel before dividing by the scaling, `2 * dpr / unit`. */
  function PixelStep(f: Frame): real
    requires 0.0 < f.width && 0.0 < f.height
  {
    2.0 * f.dpr / Unit(f)
  }

  /** The map the fragment shader applies to `gl_FragCoord` (device pixels, origin
      bottom-left) to obtain the point `c` it iterates. */
  function FragToPlane(v: View, f: Frame, fx: real, fy: real): (c: Complex)
    requires Drawable(v, f)
    ensures v == View(1.0, 0.0, 0.0) && fx == 0.0 && fy == 0.0 ==> c == Complex(-2.0, 1.1)
  {
    var unit := Unit(f);
    Complex(((2.0 * fx / unit) - 2.0) / v.scaling + v.offsetX,
            (-(2.0 * fy / unit) + 1.1) / v.scaling - v.offsetY)
  }

  /** The shader's map is affine in the fragment coordinate: `2 / unit` plane units
      per device pixel before the division by the scaling, the vertical axis
      pointing up. */
  lemma FragToPlaneAffine(v: View, f: Frame, fx: real, fy: real)
    requires Drawable(v, f)
    ensures FragToPlane(v, f, fx, fy).r == (fx * (2.0 / Unit(f)) - 2.0) * (1.0 / v.scaling) + v.offsetX
    ensures FragToPlane(v, f, fx, fy).i == (1.1 - fy * (2.0 / Unit(f))) * (1.0 / v.scaling) - v.offsetY
  {
    Ring(fx, 2.0, Unit(f), v.scaling);
    Ring(fy, 2.0, Unit(f), v.scaling);
  }

  /** The fragment coordinate at which the shader draws the plane point `c`. */
  function PlaneToFrag(v: View, f: Frame, c: Complex): Point
    requires Drawable(v, f)
  {
    var unit := Unit(f);
    Point(((c.r - v.offsetX) * v.scaling + 2.0) * unit / 2.0,
          (1.1 - (c.i + v.offsetY) * v.scaling) * unit / 2.0)
  }

  /** `screenToSpace`: a client pixel (origin top-left) to a point of the plane. It
      applies the shader's map to the pixel scaled by the device pixel ratio, with
      the vertical coordinate taken as it is, not flipped. */
  function ScreenToSpace(v: View, f: Frame, x: real, y: real): (c: Complex)
    requires Drawable(v, f)
    ensures c == FragToPlane(v, f, x * f.dpr, y * f.dpr)
  {
    var unit := Unit(f);
    var px := x * f.dpr;
    var py := y * f.dpr;
    Complex((((2.0 * px) / unit) - 2.0) / v.scaling + v.offsetX,
            (-((2.0 * py) / unit) + 1.1) / v.scaling - v.offsetY)
  }

  /** `screenToSpace` written as an affine map of the client pixel. */
  lemma ScreenToSpaceAffine(v: View, f: Frame, x: real, y: real)
    requires Drawable(v, f)
    ensures ScreenToSpace(v, f, x, y).r == (x * PixelStep(f) - 2.0) * (1.0 / v.scaling) + v.offsetX
    ensures ScreenToSpace(v, f, x, y).i == (1.1 - y * PixelStep(f)) * (1.0 / v.scaling) - v.offsetY
  {
    FragToPlaneAffine(v, f, x * f.dpr, y * f.dpr);
    PixelTerms(v, f, x, y);
  }

  /** The plane point the shader draws under the client pixel `(x, y)`: the client
      pixel scaled to device pixels, its vertical coordinate measured from the bottom
      of the canvas as `gl_FragCoord.y` is. */
  function DrawnPoint(v: View, f: Frame, x: real, y: real): Complex
    requires Drawable(v, f)
  {
    FragToPlane(v, f, x * f.dpr, f.height - y * f.dpr)
  }

  /** The drawn point as an affine map of the client pixel: the same horizontal
      map as `screenToSpace`, the vertical one mirrored about the canvas height. */
  lemma DrawnPointAffine(v: View, f: Frame, x: real, y: real)
    requires Drawable(v, f)
    ensures DrawnPoint(v, f, x, y).r == (x * PixelStep(f) - 2.0) * (1.0 / v.scaling) + v.offsetX
    ensures DrawnPoint(v, f, x, y).i
              == (1.1 - f.height * (2.0 / Unit(f)) + y * PixelStep(f)) * (1.0 / v.scaling) - v.offsetY
  {
    FragToPlaneAffine(v, f, x * f.dpr, f.height - y * f.dpr);
    PixelTerms(v, f, x, y);
  }

  lemma PixelTerms(v: View, f: Frame, x: real, y: real)
    requires Drawable(v, f)
    ensures ((x * f.dpr) * (2.0 / Unit(f)) - 2.0) * (1.0 / v.scaling) == (x * PixelStep(f) - 2.0) * (1.0 / v.scaling)
    ensures (1.1 - (y * f.dpr) * (2.0 / Unit(f))) * (1.0 / v.scaling) == (1.1 - y * PixelStep(f)) * (1.0 / v.scaling)
    ensures (1.1 - (f.height - y * f.dpr) * (2.0 / Unit(f))) * (1.0 / v.scaling)
              == (1.1 - f.height * (2.0 / Unit(f)) + y * PixelStep(f)) * (1.0 / v.scaling)
  {
    var g := 2.0 / Unit(f);
    Scale(x, f.dpr, Unit(f));
    Scale(y, f.dpr, Unit(f));
    Flip(f.height, y * f.dpr, g, y * PixelStep(f));
  }

  /** `scaleAround`: multiply the scaling by `factor` and move the offsets so that
      the real part under the anchor `(cx, cy)` stays where it is. */
  function ScaleAround(v: View, f: Frame, factor: real, cx: real, cy: real): (w: View)
    requires Drawable(v, f) && factor != 0.0
    ensures w.scaling == v.scaling * factor && Drawable(w, f)
  {
    var newScaling := v.scaling * factor;
    var unit := Unit(f);
    var centerX := cx * f.dpr;
    var centerY := cy * f.dpr;
    var w := View(newScaling,
                  ((2.0 * centerX) / unit - 2.0) * ((1.0 / v.scaling) - (1.0 / newScaling)) + v.offsetX,
                  -(-(2.0 * centerY) / unit + 1.1) * ((1.0 / newScaling) - (1.0 / v.scaling)) + v.offsetY);
    NonzeroProduct(v.scaling, factor);
    w
  }

  /** The real part `screenToSpace` gives for the anchor is the same before and
      after `scaleAround`. */
  lemma ScaleAroundKeepsAnchor(v: View, f: Frame, factor: real, cx: real, cy: real)
    requires Drawable(v, f) && factor != 0.0
    ensures ScreenToSpace(ScaleAround(v, f, factor, cx, cy), f, cx, cy).r == ScreenToSpace(v, f, cx, cy).r
  {
    AnchorKept(v, f, factor, cx);
  }

  lemma AnchorKept(v: View, f: Frame, factor: real, cx: real)
    requires Drawable(v, f) && factor != 0.0
    ensures var a := (2.0 * (cx * f.dpr)) / Unit(f) - 2.0;
            a / (v.scaling * factor) + (a * ((1.0 / v.scaling) - (1.0 / (v.scaling * factor))) + v.offsetX)
              == a / v.scaling + v.offsetX
  {
    NonzeroProduct(v.scaling, factor);
    KeepAlgebra((2.0 * (cx * f.dpr)) / Unit(f) - 2.0, v.scaling, v.scaling * factor, v.offsetX);
  }

  /** The offsets after `scaleAround` in affine form: each moves by the anchor's
      coordinate times the change of `1 / scaling`. */
  lemma ScaleAroundOffsets(v: View, f: Frame, factor: real, cx: real, cy: real)
    requires Drawable(v, f) && factor != 0.0
    ensures var w := ScaleAround(v, f, factor, cx, cy);
            && w.offsetX == (cx * PixelStep(f) - 2.0) * (1.0 / v.scaling - 1.0 / w.scaling) + v.offsetX
            && w.offsetY == -(1.1 - cy * PixelStep(f)) * (1.0 / w.scaling - 1.0 / v.scaling) + v.offsetY
  {
    OffsetTerms(v, f, factor, cx, cy);
  }

  lemma OffsetTerms(v: View, f: Frame, factor: real, cx: real, cy: real)
    requires Drawable(v, f) && factor != 0.0
    ensures ((2.0 * (cx * f.dpr)) / Unit(f) - 2.0) * ((1.0 / v.scaling) - (1.0 / (v.scaling * factor)))
              == (cx * PixelStep(f) - 2.0) * ((1.0 / v.scaling) - (1.0 / (v.scaling * factor)))
    ensures -(-(2.0 * (cy * f.dpr)) / Unit(f) + 1.1) * ((1.0 / (v.scaling * factor)) - (1.0 / v.scaling))
              == -(1.1 - cy * PixelStep(f)) * ((1.0 / (v.scaling * factor)) - (1.0 / v.scaling))
  {
    var u := Unit(f);
    NonzeroProduct(v.scaling, factor);
    Scale(cx, f.dpr, u);
    Scale(cy, f.dpr, u);
    NegDiv(2.0 * (cy * f.dpr), u);
  }

  /** `screenToSpace`'s imaginary part under the anchor is not kept: it moves by
      twice the anchor's vertical term times the change of `1 / scaling`, so every
      zoom other than by 1 moves it unless the anchor sits where that term is 0. */
  lemma ScaleAroundMovesScreenImag(v: View, f: Frame, factor: real, cx: real, cy: real)
    requires Drawable(v, f) && factor != 0.0
    ensures var w := ScaleAround(v, f, factor, cx, cy);
            ScreenToSpace(w, f, cx, cy).i - ScreenToSpace(v, f, cx, cy).i
              == 2.0 * (1.1 - cy * PixelStep(f)) * (1.0 / w.scaling - 1.0 / v.scaling)
    ensures factor != 1.0 && cy * PixelStep(f) != 1.1 ==>
              ScreenToSpace(ScaleAround(v, f, factor, cx, cy), f, cx, cy).i != ScreenToSpace(v, f, cx, cy).i
  {
    ScaleAroundOffsets(v, f, factor, cx, cy);
    ScreenImagDrift(v, ScaleAround(v, f, factor, cx, cy), f, factor, cx, cy);
  }

  lemma ScreenImagDrift(v: View, w: View, f: Frame, factor: real, cx: real, cy: real)
    requires Drawable(v, f) && Drawable(w, f) && w.scaling == v.scaling * factor
    requires w.offsetY == -(1.1 - cy * PixelStep(f)) * (1.0 / w.scaling - 1.0 / v.scaling) + v.offsetY
    ensures ScreenToSpace(w, f, cx, cy).i - ScreenToSpace(v, f, cx, cy).i
              == 2.0 * (1.1 - cy * PixelStep(f)) * (1.0 / w.scaling - 1.0 / v.scaling)
    ensures factor != 1.0 && cy * PixelStep(f) != 1.1 ==>
              ScreenToSpace(w, f, cx, cy).i != ScreenToSpace(v, f, cx, cy).i
  {
    var b, p, q := 1.1 - cy * PixelStep(f), 1.0 / v.scaling, 1.0 / w.scaling;
    ScreenToSpaceAffine(v, f, cx, cy);
    ScreenToSpaceAffine(w, f, cx, cy);
    ShiftAlgebra(b, b, p, q, v.offsetY);
    assert (b + b) * (q - p) == 2.0 * b * (q - p);
    if factor != 1.0 && b != 0.0 {
      NotReciprocal(v.scaling, factor);
      NonzeroDiff(ScreenToSpace(w, f, cx, cy).i, ScreenToSpace(v, f, cx, cy).i, 2.0 * b, q - p);
    }
  }

  /** The round trip through the shader's map, from pixels to plane and back. */
  lemma FragPlaneRoundTrip(v: View, f: Frame, fx: real, fy: real)
    requires Drawable(v, f)
    ensures PlaneToFrag(v, f, FragToPlane(v, f, fx, fy)) == Point(fx, fy)
  {
    var u, g, p := Unit(f), 2.0 / Unit(f), 1.0 / v.scaling;
    var c := FragToPlane(v, f, fx, fy);
    FragToPlaneAffine(v, f, fx, fy);
    assert v.scaling * p == 1.0;
    assert u * g == 2.0;
    assert (c.r - v.offsetX) * v.scaling + 2.0 == fx * g;
    assert (fx * g) * u / 2.0 == fx;
    assert (1.1 - (c.i + v.offsetY) * v.scaling) == fy * g;
    assert (fy * g) * u / 2.0 == fy;
  }

  /** The round trip through the shader's map, from plane to pixels and back. */
  lemma PlaneFragRoundTrip(v: View, f: Frame, c: Complex)
    requires Drawable(v, f)
    ensures FragToPlane(v, f, PlaneToFrag(v, f, c).x, PlaneToFrag(v, f, c).y) == c
  {
    var u, g, p := Unit(f), 2.0 / Unit(f), 1.0 / v.scaling;
    var q := PlaneToFrag(v, f, c);
    FragToPlaneAffine(v, f, q.x, q.y);
    assert v.scaling * p == 1.0;
    assert u * g == 2.0;
    assert q.x * g == (c.r - v.offsetX) * v.scaling + 2.0;
    assert ((c.r - v.offsetX) * v.scaling) * p == c.r - v.offsetX;
    assert q.y * g == 1.1 - (c.i + v.offsetY) * v.scaling;
    assert ((c.i + v.offsetY) * v.scaling) * p == c.i + v.offsetY;
  }

  /** Screen to plane and back through the shader's inverse map returns the client
      pixel (in device pixels, before dividing by the ratio). */
  lemma ScreenRoundTrip(v: View, f: Frame, x: real, y: real)
    requires Drawable(v, f) && f.dpr != 0.0
    ensures var q := PlaneToFrag(v, f, ScreenToSpace(v, f, x, y));
            q.x / f.dpr == x && q.y / f.dpr == y
  {
    var q := PlaneToFrag(v, f, ScreenToSpace(v, f, x, y));
    FragPlaneRoundTrip(v, f, x * f.dpr, y * f.dpr);
    ScaledBack(q, x, y, f.dpr);
  }

  /** Dividing a point scaled by `d` by `d` again. */
  lemma ScaledBack(q: Point, x: real, y: real, d: real)
    requires d != 0.0 && q == Point(x * d, y * d)
    ensures q.x / d == x && q.y / d == y
  {
    DivUnique(q.x, d, x);
    DivUnique(q.y, d, y);
  }

  /** `scaleAround` and the image the shader draws. The real part drawn under the
      anchor never moves. The imaginary part drawn under it stays put exactly when
      the canvas height is the constraining dimension of the unit, that is when the
      window is at least as wide as the 1.3 : 1.1 reference shape; in a taller
      window any zoom other than by 1 drifts it. */
  lemma ScaleAroundDrawnAnchor(v: View, f: Frame, factor: real, cx: real, cy: real)
    requires Drawable(v, f) && factor != 0.0
    ensures DrawnPoint(ScaleAround(v, f, factor, cx, cy), f, cx, cy).r == DrawnPoint(v, f, cx, cy).r
    ensures Unit(f) == f.height / ScreenYRatio ==>
              DrawnPoint(ScaleAround(v, f, factor, cx, cy), f, cx, cy) == DrawnPoint(v, f, cx, cy)
    ensures factor != 1.0 && Unit(f) != f.height / ScreenYRatio ==>
              DrawnPoint(ScaleAround(v, f, factor, cx, cy), f, cx, cy).i != DrawnPoint(v, f, cx, cy).i
  {
    ScaleAroundOffsets(v, f, factor, cx, cy);
    AnchorDrift(v, ScaleAround(v, f, factor, cx, cy), f, factor, cx, cy);
  }

  /** The drawn anchor for any view whose offsets moved as `scaleAround` moves them. */
  lemma AnchorDrift(v: View, w: View, f: Frame, factor: real, cx: real, cy: real)
    requires Drawable(v, f) && Drawable(w, f) && w.scaling == v.scaling * factor
    requires w.offsetX == (cx * PixelStep(f) - 2.0) * (1.0 / v.scaling - 1.0 / w.scaling) + v.offsetX
    requires w.offsetY == -(1.1 - cy * PixelStep(f)) * (1.0 / w.scaling - 1.0 / v.scaling) + v.offsetY
    ensures DrawnPoint(w, f, cx, cy).r == DrawnPoint(v, f, cx, cy).r
    ensures Unit(f) == f.height / ScreenYRatio ==> DrawnPoint(w, f, cx, cy) == DrawnPoint(v, f, cx, cy)
    ensures factor != 1.0 && Unit(f) != f.height / ScreenYRatio ==>
              DrawnPoint(w, f, cx, cy).i != DrawnPoint(v, f, cx, cy).i
  {
    DrawnAnchorShift(v, w, f, cx, cy);
    DriftCases(v, w, f, factor, cx, cy);
  }

  /** The imaginary drift under the anchor vanishes exactly when the height gap does. */
  lemma DriftCases(v: View, w: View, f: Frame, factor: real, cx: real, cy: real)
    requires Drawable(v, f) && Drawable(w, f) && w.scaling == v.scaling * factor
    requires DrawnPoint(w, f, cx, cy).r == DrawnPoint(v, f, cx, cy).r
    requires DrawnPoint(w, f, cx, cy).i - DrawnPoint(v, f, cx, cy).i
               == (2.2 - f.height * (2.0 / Unit(f))) * (1.0 / w.scaling - 1.0 / v.scaling)
    ensures Unit(f) == f.height / ScreenYRatio ==> DrawnPoint(w, f, cx, cy) == DrawnPoint(v, f, cx, cy)
    ensures factor != 1.0 && Unit(f) != f.height / ScreenYRatio ==>
              DrawnPoint(w, f, cx, cy).i != DrawnPoint(v, f, cx, cy).i
  {
    var ai, bi := DrawnPoint(w, f, cx, cy).i, DrawnPoint(v, f, cx, cy).i;
    var h, u := f.height, Unit(f);
    HeightGap(h, u);
    if u == h / ScreenYRatio {
      assert 2.2 - h * (2.0 / u) == 0.0;
      assert ai == bi;
    } else if factor != 1.0 {
      NotReciprocal(v.scaling, factor);
      NonzeroDiff(ai, bi, 2.2 - h * (2.0 / u), 1.0 / w.scaling - 1.0 / v.scaling);
    }
  }

  /** Under the anchor, the drawn real part is kept and the drawn imaginary part
      moves by the change of `1 / scaling` times `2.2 - height * 2 / unit`. */
  lemma DrawnAnchorShift(v: View, w: View, f: Frame, cx: real, cy: real)
    requires Drawable(v, f) && Drawable(w, f)
    requires w.offsetX == (cx * PixelStep(f) - 2.0) * (1.0 / v.scaling - 1.0 / w.scaling) + v.offsetX
    requires w.offsetY == -(1.1 - cy * PixelStep(f)) * (1.0 / w.scaling - 1.0 / v.scaling) + v.offsetY
    ensures DrawnPoint(w, f, cx, cy).r == DrawnPoint(v, f, cx, cy).r
    ensures DrawnPoint(w, f, cx, cy).i - DrawnPoint(v, f, cx, cy).i
              == (2.2 - f.height * (2.0 / Unit(f))) * (1.0 / w.scaling - 1.0 / v.scaling)
  {
    DrawnPointAffine(v, f, cx, cy);
    DrawnPointAffine(w, f, cx, cy);
    AnchorShiftAlgebra(v, w, f, cx, cy);
  }

  lemma AnchorShiftAlgebra(v: View, w: View, f: Frame, cx: real, cy: real)
    requires Drawable(v, f) && Drawable(w, f)
    ensures (cx * PixelStep(f) - 2.0) * (1.0 / w.scaling)
              + ((cx * PixelStep(f) - 2.0) * (1.0 / v.scaling - 1.0 / w.scaling) + v.offsetX)
            == (cx * PixelStep(f) - 2.0) * (1.0 / v.scaling) + v.offsetX
    ensures ((1.1 - f.height * (2.0 / Unit(f)) + cy * PixelStep(f)) * (1.0 / w.scaling)
               - (-(1.1 - cy * PixelStep(f)) * (1.0 / w.scaling - 1.0 / v.scaling) + v.offsetY))
              - ((1.1 - f.height * (2.0 / Unit(f)) + cy * PixelStep(f)) * (1.0 / v.scaling) - v.offsetY)
            == (2.2 - f.height * (2.0 / Unit(f))) * (1.0 / w.scaling - 1.0 / v.scaling)
  {
    var ps, hg := PixelStep(f), f.height * (2.0 / Unit(f));
    AnchorAlgebra(cx * ps - 2.0, 1.0 / v.scaling, 1.0 / w.scaling, v.offsetX);
    ShiftAlgebra(1.1 - hg + cy * ps, 1.1 - cy * ps, 1.0 / v.scaling, 1.0 / w.scaling, v.offsetY);
  }


  /** Offsets change of a drag by `(dx, dy)` client pixels: `screenToSpace(0, 0) -
      screenToSpace(dx, dy)`. */
  function DragDelta(v: View, f: Frame, dx: real, dy: real): (d: Complex)
    requires Drawable(v, f)
    ensures dx == 0.0 && dy == 0.0 ==> d == Complex(0.0, 0.0)
  {
    var origo := ScreenToSpace(v, f, 0.0, 0.0);
    var movement := ScreenToSpace(v, f, dx, dy);
    Complex(origo.r - movement.r, origo.i - movement.i)
  }

  /** The drag delta is linear in the client displacement: `dx` pixels to the right
      move the offsets left by `dx` pixel steps, `dy` pixels down move them up. */
  lemma DragDeltaAffine(v: View, f: Frame, dx: real, dy: real)
    requires Drawable(v, f)
    ensures DragDelta(v, f, dx, dy).r == -(dx * PixelStep(f)) * (1.0 / v.scaling)
    ensures DragDelta(v, f, dx, dy).i == (dy * PixelStep(f)) * (1.0 / v.scaling)
  {
    ScreenToSpaceAffine(v, f, 0.0, 0.0);
    ScreenToSpaceAffine(v, f, dx, dy);
  }

  /** A touch drag moves the offsets by the drag delta itself. */
  function TouchDrag(v: View, f: Frame, dx: real, dy: real): (w: View)
    requires Drawable(v, f)
    ensures w.scaling == v.scaling
    ensures dx == 0.0 && dy == 0.0 ==> w == v
  {
    var d := DragDelta(v, f, dx, dy);
    View(v.scaling, v.offsetX + d.r, v.offsetY + d.i)
  }

  /** The view after a touch drag, field by field: the scaling is kept and each
      offset moves by the client displacement in plane units. */
  lemma TouchDragAffine(v: View, f: Frame, dx: real, dy: real)
    requires Drawable(v, f)
    ensures TouchDrag(v, f, dx, dy).scaling == v.scaling
    ensures TouchDrag(v, f, dx, dy).offsetX == v.offsetX + -(dx * PixelStep(f)) * (1.0 / v.scaling)
    ensures TouchDrag(v, f, dx, dy).offsetY == v.offsetY + (dy * PixelStep(f)) * (1.0 / v.scaling)
  {
    DragDeltaAffine(v, f, dx, dy);
  }

  /** A mouse drag moves the offsets by the drag delta times the drag sensitivity. */
  function MouseDrag(v: View, f: Frame, dx: real, dy: real, dragSense: real): (w: View)
    requires Drawable(v, f)
    ensures w.scaling == v.scaling
    ensures (dx == 0.0 && dy == 0.0) || dragSense == 0.0 ==> w == v
  {
    var d := DragDelta(v, f, dx, dy);
    View(v.scaling, v.offsetX + d.r * dragSense, v.offsetY + d.i * dragSense)
  }

  /** A mouse drag is the touch drag scaled by the drag sensitivity: the scaling is
      kept, each offset moves `dragSense` times as far, and at sensitivity 1 the two
      drags agree. */
  lemma MouseDragScales(v: View, f: Frame, dx: real, dy: real, dragSense: real)
    requires Drawable(v, f)
    ensures MouseDrag(v, f, dx, dy, dragSense).scaling == v.scaling
    ensures MouseDrag(v, f, dx, dy, dragSense).offsetX - v.offsetX
              == dragSense * (TouchDrag(v, f, dx, dy).offsetX - v.offsetX)
    ensures MouseDrag(v, f, dx, dy, dragSense).offsetY - v.offsetY
              == dragSense * (TouchDrag(v, f, dx, dy).offsetY - v.offsetY)
    ensures dragSense == 1.0 ==> MouseDrag(v, f, dx, dy, dragSense) == TouchDrag(v, f, dx, dy)
  {
  }

  /** A drag by `(dx, dy)` carries the image with the pointer: the plane point the
      shader drew under `(x, y)` is drawn under `(x + dx, y + dy)` afterwards, on
      both axes. */
  lemma DragFollowsPointer(v: View, f: Frame, dx: real, dy: real, x: real, y: real)
    requires Drawable(v, f)
    ensures DrawnPoint(TouchDrag(v, f, dx, dy), f, x + dx, y + dy) == DrawnPoint(v, f, x, y)
  {
    DraggedDrawnPoint(v, f, dx, dy, x, y);
    DrawnPointAffine(v, f, x, y);
    DragShift(v, f, dx, dy, x, y);
  }

  /** The drawn point under `(x + dx, y + dy)` after the drag, in the affine form
      of the view before it. */
  lemma DraggedDrawnPoint(v: View, f: Frame, dx: real, dy: real, x: real, y: real)
    requires Drawable(v, f)
    ensures DrawnPoint(TouchDrag(v, f, dx, dy), f, x + dx, y + dy).r
              == ((x + dx) * PixelStep(f) - 2.0) * (1.0 / v.scaling)
                 + (v.offsetX + -(dx * PixelStep(f)) * (1.0 / v.scaling))
    ensures DrawnPoint(TouchDrag(v, f, dx, dy), f, x + dx, y + dy).i
              == (1.1 - f.height * (2.0 / Unit(f)) + (y + dy) * PixelStep(f)) * (1.0 / v.scaling)
                 - (v.offsetY + (dy * PixelStep(f)) * (1.0 / v.scaling))
  {
    TouchDragAffine(v, f, dx, dy);
    DrawnAtSameScale(v, TouchDrag(v, f, dx, dy), f, x, dx, y, dy);
  }

  /** The drawn point of a view with the same scaling as `v`, in the terms of `v`. */
  lemma DrawnAtSameScale(v: View, w: View, f: Frame, x: real, dx: real, y: real, dy: real)
    requires Drawable(v, f) && w.scaling == v.scaling
    ensures DrawnPoint(w, f, x + dx, y + dy).r == ((x + dx) * PixelStep(f) - 2.0) * (1.0 / v.scaling) + w.offsetX
    ensures DrawnPoint(w, f, x + dx, y + dy).i
              == (1.1 - f.height * (2.0 / Unit(f)) + (y + dy) * PixelStep(f)) * (1.0 / v.scaling) - w.offsetY
  {
    DrawnPointAffine(w, f, x + dx, y + dy);
  }

  /** The offsets' shift cancels the pointer's displacement on both axes. */
  lemma DragShift(v: View, f: Frame, dx: real, dy: real, x: real, y: real)
    requires Drawable(v, f)
    ensures ((x + dx) * PixelStep(f) - 2.0) * (1.0 / v.scaling) + (v.offsetX + -(dx * PixelStep(f)) * (1.0 / v.scaling))
            == (x * PixelStep(f) - 2.0) * (1.0 / v.scaling) + v.offsetX
    ensures (1.1 - f.height * (2.0 / Unit(f)) + (y + dy) * PixelStep(f)) * (1.0 / v.scaling)
              - (v.offsetY + (dy * PixelStep(f)) * (1.0 / v.scaling))
            == (1.1 - f.height * (2.0 / Unit(f)) + y * PixelStep(f)) * (1.0 / v.scaling) - v.offsetY
  {
    ShiftCancels(x, dx, y, dy, PixelStep(f), 1.0 / v.scaling, v.offsetX, v.offsetY, 1.1 - f.height * (2.0 / Unit(f)));
  }

  /** `resetView`: offsets that fit the set into the canvas, chosen by which of
      `w = width / 1.3` and `h = height / 1.1` is larger. */
  function ResetView(v: View, f: Frame): (w: View)
    requires 0.0 < f.width && 0.0 < f.height
    ensures w.scaling == v.scaling
    ensures w.offsetX <= 0.0 && w.offsetY <= 0.0 && (w.offsetX == 0.0 || w.offsetY == 0.0)
  {
    var wd := f.width / ScreenXRatio;
    var ht := f.height / ScreenYRatio;
    var unit := Min(wd, ht);
    if wd >= ht then
      SubOverSelf(wd, ht);
      View(v.scaling, -(wd - ht) / unit, 0.0)
    else
      SubOverSelf(ht, wd);
      View(v.scaling, 0.0, -(ht - wd) / unit)
  }

  /** Both reset offsets in one formula each: `1 - w / unit` and `1 - h / unit`,
      so the dimension that sets the unit gets offset 0. */
  lemma ResetViewOffsets(v: View, f: Frame)
    requires 0.0 < f.width && 0.0 < f.height
    ensures ResetView(v, f).offsetX == 1.0 - (f.width / ScreenXRatio) / Unit(f)
    ensures ResetView(v, f).offsetY == 1.0 - (f.height / ScreenYRatio) / Unit(f)
  {
    var wd, ht := f.width / ScreenXRatio, f.height / ScreenYRatio;
    if wd >= ht {
      SubOverSelf(wd, ht);
    } else {
      SubOverSelf(ht, wd);
    }
  }

  /** After a reset at scaling 1 the canvas shows the whole rectangle
      [-2, 0.6] x [-1.1, 1.1] of the plane, and along the constraining dimension
      exactly that range. */
  lemma ResetViewFits(v: View, f: Frame)
    requires v.scaling == 1.0 && 0.0 < f.width && 0.0 < f.height
    ensures var w := ResetView(v, f);
            && FragToPlane(w, f, 0.0, 0.0).r <= -2.0
            && FragToPlane(w, f, f.width, 0.0).r >= 0.6
            && FragToPlane(w, f, 0.0, 0.0).i >= 1.1
            && FragToPlane(w, f, 0.0, f.height).i <= -1.1
            && (Unit(f) == f.width / ScreenXRatio ==>
                  FragToPlane(w, f, 0.0, 0.0).r == -2.0 && FragToPlane(w, f, f.width, 0.0).r == 0.6)
            && (Unit(f) == f.height / ScreenYRatio ==>
                  FragToPlane(w, f, 0.0, 0.0).i == 1.1 && FragToPlane(w, f, 0.0, f.height).i == -1.1)
  {
    var w := ResetView(v, f);
    var u, g := Unit(f), 2.0 / Unit(f);
    var kx, ky := (f.width / ScreenXRatio) / u, (f.height / ScreenYRatio) / u;
    FragToPlaneAffine(w, f, 0.0, 0.0);
    FragToPlaneAffine(w, f, f.width, 0.0);
    FragToPlaneAffine(w, f, 0.0, f.height);
    assert u * g == 2.0;
    assert u * kx == f.width / ScreenXRatio;
    assert u * ky == f.height / ScreenYRatio;
    assert f.width * g == 2.6 * kx;
    assert f.height * g == 2.2 * ky;
    DivBoundsLe(f.width / ScreenXRatio, u, 1.0);
    DivBoundsLe(f.height / ScreenYRatio, u, 1.0);
  }

  /** On a 1300 x 1100 canvas at ratio 1 and scaling 1 the reset offsets are both
      0, and the canvas centre maps to `-0.7`, the middle of the fitted real range
      [-2, 0.6], not to the offsets. */
  lemma ReferenceCanvasCentre()
    ensures var f := Frame(1300.0, 1100.0, 1.0);
            var w := ResetView(View(1.0, 0.0, 0.0), f);
            w == View(1.0, 0.0, 0.0) && ScreenToSpace(w, f, 650.0, 550.0) == Complex(-0.7, 0.0)
  {
    var f := Frame(1300.0, 1100.0, 1.0);
    assert Unit(f) == 1000.0;
  }

  /** The canvas centre after a reset at scaling 1 is `-1 + 0.3 * kx` on the real
      axis and `0.1 - 0.1 * ky` on the imaginary one, where `kx` and `ky` are the two
      sides in unit lengths. It is the centre `-0.7 + 0i` of the fitted range
      exactly when the canvas has the 1.3 : 1.1 reference shape. */
  lemma ResetViewCentre(v: View, f: Frame)
    requires v.scaling == 1.0 && 0.0 < f.width && 0.0 < f.height
    ensures var kx, ky := (f.width / ScreenXRatio) / Unit(f), (f.height / ScreenYRatio) / Unit(f);
            FragToPlane(ResetView(v, f), f, f.width / 2.0, f.height / 2.0) == Complex(0.3 * kx - 1.0, 0.1 - 0.1 * ky)
    ensures (FragToPlane(ResetView(v, f), f, f.width / 2.0, f.height / 2.0) == Complex(-0.7, 0.0))
              <==> (f.width / ScreenXRatio == f.height / ScreenYRatio)
  {
    var u := Unit(f);
    var wd, ht := f.width / ScreenXRatio, f.height / ScreenYRatio;
    var kx, ky := wd / u, ht / u;
    ResetViewOffsets(v, f);
    CentreTerms(ResetView(v, f), f);
    DivUnique(u, u, 1.0);
    if wd == ht {
      assert kx == 1.0 && ky == 1.0;
    } else if wd > ht {
      assert u == ht;
      DivBoundsLe(wd, u, 1.0);
      assert kx != 1.0 by { DivMul(wd, u); }
    } else {
      assert u == wd;
      assert ky != 1.0 by { DivMul(ht, u); }
    }
  }

  /** The resets on two canvases of other shapes. On 2600 x 1100 the canvas spans
      the real range [-3, 2.2] with centre -0.4; on 1300 x 2200 the centre is
      `-0.7 - 0.1i`. The fitted range [-2, 0.6] x [-1.1, 1.1] has centre `-0.7 + 0i`. */
  lemma ResetViewOffCentre()
    ensures var f := Frame(2600.0, 1100.0, 1.0);
            var w := ResetView(View(1.0, 0.0, 0.0), f);
            && w == View(1.0, -1.0, 0.0)
            && FragToPlane(w, f, 0.0, 0.0).r == -3.0 && FragToPlane(w, f, 2600.0, 0.0).r == 2.2
            && FragToPlane(w, f, 1300.0, 550.0) == Complex(-0.4, 0.0)
    ensures var f := Frame(1300.0, 2200.0, 1.0);
            var w := ResetView(View(1.0, 0.0, 0.0), f);
            w == View(1.0, 0.0, -1.0) && FragToPlane(w, f, 650.0, 1100.0) == Complex(-0.7, -0.1)
  {
    assert Unit(Frame(2600.0, 1100.0, 1.0)) == 1000.0;
    assert Unit(Frame(1300.0, 2200.0, 1.0)) == 1000.0;
  }

  /** The reset with the offsets scaled by the aspect constants, `-1.3 * (w - h) / unit`
      and `-1.1 * (h - w) / unit`, which puts the fitted range in the middle of the
      canvas on every shape. */
  function CenteredResetView(v: View, f: Frame): (w: View)
    requires 0.0 < f.width && 0.0 < f.height
    ensures w.scaling == v.scaling
  {
    var wd := f.width / ScreenXRatio;
    var ht := f.height / ScreenYRatio;
    var unit := Min(wd, ht);
    if wd >= ht then View(v.scaling, -ScreenXRatio * (wd - ht) / unit, 0.0)
    else View(v.scaling, 0.0, -ScreenYRatio * (ht - wd) / unit)
  }

  /** The corrected offsets in one formula each: `1.3 * (1 - kx)` and `1.1 * (1 - ky)`. */
  lemma CenteredResetViewOffsets(v: View, f: Frame)
    requires 0.0 < f.width && 0.0 < f.height
    ensures CenteredResetView(v, f).offsetX == ScreenXRatio * (1.0 - (f.width / ScreenXRatio) / Unit(f))
    ensures CenteredResetView(v, f).offsetY == ScreenYRatio * (1.0 - (f.height / ScreenYRatio) / Unit(f))
  {
    var wd, ht := f.width / ScreenXRatio, f.height / ScreenYRatio;
    if wd >= ht {
      ScaledOffset(ScreenXRatio, wd, ht);
      ScaledOffset(ScreenYRatio, ht, ht);
    } else {
      ScaledOffset(ScreenYRatio, ht, wd);
      ScaledOffset(ScreenXRatio, wd, wd);
    }
  }

  /** After the corrected reset at scaling 1 the canvas centre is `-0.7 + 0i` on
      every canvas shape, and the whole range [-2, 0.6] x [-1.1, 1.1] is still
      visible. */
  lemma CenteredResetViewCentres(v: View, f: Frame)
    requires v.scaling == 1.0 && 0.0 < f.width && 0.0 < f.height
    ensures var w := CenteredResetView(v, f);
            && FragToPlane(w, f, f.width / 2.0, f.height / 2.0) == Complex(-0.7, 0.0)
            && FragToPlane(w, f, 0.0, 0.0).r <= -2.0
            && FragToPlane(w, f, f.width, 0.0).r >= 0.6
            && FragToPlane(w, f, 0.0, 0.0).i >= 1.1
            && FragToPlane(w, f, 0.0, f.height).i <= -1.1
  {
    var w := CenteredResetView(v, f);
    var u, g := Unit(f), 2.0 / Unit(f);
    var kx, ky := (f.width / ScreenXRatio) / u, (f.height / ScreenYRatio) / u;
    CenteredResetViewOffsets(v, f);
    CentreTerms(w, f);
    FragToPlaneAffine(w, f, 0.0, 0.0);
    FragToPlaneAffine(w, f, f.width, 0.0);
    FragToPlaneAffine(w, f, 0.0, f.height);
    assert u * g == 2.0;
    assert u * kx == f.width / ScreenXRatio;
    assert u * ky == f.height / ScreenYRatio;
    assert f.width * g == 2.6 * kx;
    assert f.height * g == 2.2 * ky;
    DivBoundsLe(f.width / ScreenXRatio, u, 1.0);
    DivBoundsLe(f.height / ScreenYRatio, u, 1.0);
  }

  /** The canvas centre at scaling 1 for any offsets, in unit lengths. */
  lemma CentreTerms(w: View, f: Frame)
    requires w.scaling == 1.0 && 0.0 < f.width && 0.0 < f.height
    ensures var kx, ky := (f.width / ScreenXRatio) / Unit(f), (f.height / ScreenYRatio) / Unit(f);
            && FragToPlane(w, f, f.width / 2.0, f.height / 2.0).r == 1.3 * kx - 2.0 + w.offsetX
            && FragToPlane(w, f, f.width / 2.0, f.height / 2.0).i == 1.1 - 1.1 * ky - w.offsetY
  {
    var u, g := Unit(f), 2.0 / Unit(f);
    var kx, ky := (f.width / ScreenXRatio) / u, (f.height / ScreenYRatio) / u;
    FragToPlaneAffine(w, f, f.width / 2.0, f.height / 2.0);
    assert u * g == 2.0;
    assert u * kx == f.width / ScreenXRatio;
    assert u * ky == f.height / ScreenYRatio;
    assert (f.width / 2.0) * g == 1.3 * kx;
    assert (f.height / 2.0) * g == 1.1 * ky;
  }

  /** The zoom factor of a wheel event, `1.001 ** (-deltaY * scrollSense)`. */
  function ScrollFactor(m: MathLib, deltaY: real, scrollSense: real): (k: real)
    requires Lawful(m)
    ensures 0.0 < k
  {
    m.pow(1.001, -deltaY * scrollSense)
  }

  /** The centre of two touches, `(b + a) * 0.5` coordinate by coordinate: the
      point halfway between them, so the order of the touches does not matter. */
  function Midpoint(a: Point, b: Point): (r: Point)
    ensures r.x - a.x == b.x - r.x && r.y - a.y == b.y - r.y
  {
    Point((b.x + a.x) * 0.5, (b.y + a.y) * 0.5)
  }

  /** The centre does not depend on the order of the touches. */
  lemma MidpointSymmetric(a: Point, b: Point)
    ensures Midpoint(a, b) == Midpoint(b, a)
  {
  }

  /** The squared distance of two touches. */
  function Dist2(a: Point, b: Point): (d: real)
    ensures 0.0 <= d
  {
    var dx, dy := a.x - b.x, a.y - b.y;
    SumOfSquares(dx, dy);
    dx * dx + dy * dy
  }

  /** The pinch zoom factor, the square root of the ratio of the new to the old
      finger separation: its square scales the old separation to the new one. */
  function PinchFactor(m: MathLib, o0: Point, o1: Point, n0: Point, n1: Point): (k: real)
    requires Lawful(m) && 0.0 < Dist2(o0, o1)
    ensures 0.0 <= k
    ensures k * k * m.pow(Dist2(o0, o1), 0.5) == m.pow(Dist2(n0, n1), 0.5)
  {
    var oldLen := m.pow(Dist2(o0, o1), 0.5);
    var newLen := m.pow(Dist2(n0, n1), 0.5);
    PositiveRoot(oldLen, Dist2(o0, o1));
    DivMul(newLen, oldLen);
    m.sqrt(newLen / oldLen)
  }

  /** Fingers that stay apart give a positive factor, and fingers whose separation
      did not change give exactly 1. */
  lemma PinchFactorValues(m: MathLib, o0: Point, o1: Point, n0: Point, n1: Point)
    requires Lawful(m) && 0.0 < Dist2(o0, o1)
    ensures 0.0 < Dist2(n0, n1) ==> 0.0 < PinchFactor(m, o0, o1, n0, n1)
    ensures Dist2(n0, n1) == Dist2(o0, o1) ==> PinchFactor(m, o0, o1, n0, n1) == 1.0
  {
    var oldLen := m.pow(Dist2(o0, o1), 0.5);
    var newLen := m.pow(Dist2(n0, n1), 0.5);
    PositiveRoot(oldLen, Dist2(o0, o1));
    var ratio := newLen / oldLen;
    var k := m.sqrt(ratio);
    assert k == PinchFactor(m, o0, o1, n0, n1);
    if 0.0 < Dist2(n0, n1) {
      PositiveRoot(newLen, Dist2(n0, n1));
      DivBoundsLe(newLen, oldLen, 0.0);
      assert 0.0 < ratio;
      PositiveRoot(k, ratio);
    }
    if Dist2(n0, n1) == Dist2(o0, o1) {
      DivUnique(oldLen, oldLen, 1.0);
      UnitRoot(k);
    }
  }

  /** `processMultiTouchGesture`: zoom by `factor` around the midpoint of the old
      and new finger centres, then translate by the movement of the centre scaled by
      the factor. */
  function PinchView(v: View, f: Frame, factor: real, o0: Point, o1: Point, n0: Point, n1: Point): (w: View)
    requires Drawable(v, f) && factor != 0.0
    ensures w.scaling == v.scaling * factor && Drawable(w, f)
  {
    var middle := Midpoint(Midpoint(o0, o1), Midpoint(n0, n1));
    var toMove := PinchMove(factor, o0, o1, n0, n1);
    TouchDrag(ScaleAround(v, f, factor, middle.x, middle.y), f, toMove.x, toMove.y)
  }

  /** The movement of the finger centre, scaled by the pinch factor. */
  function PinchMove(factor: real, o0: Point, o1: Point, n0: Point, n1: Point): (p: Point)
    ensures Midpoint(o0, o1) == Midpoint(n0, n1) ==> p == Point(0.0, 0.0)
  {
    var oldCenter, newCenter := Midpoint(o0, o1), Midpoint(n0, n1);
    Point((newCenter.x - oldCenter.x) * factor, (newCenter.y - oldCenter.y) * factor)
  }

  /** The pinch carries the plane point under the midpoint of the old and new finger
      centres along with the centre's movement: its real part always, and the whole
      drawn point when the canvas height constrains the unit. */
  lemma PinchCarriesMidpoint(v: View, f: Frame, factor: real, o0: Point, o1: Point, n0: Point, n1: Point)
    requires Drawable(v, f) && factor != 0.0
    ensures var middle := Midpoint(Midpoint(o0, o1), Midpoint(n0, n1));
            var toMove := PinchMove(factor, o0, o1, n0, n1);
            var w := PinchView(v, f, factor, o0, o1, n0, n1);
            && DrawnPoint(w, f, middle.x + toMove.x, middle.y + toMove.y).r == DrawnPoint(v, f, middle.x, middle.y).r
            && (Unit(f) == f.height / ScreenYRatio ==>
                  DrawnPoint(w, f, middle.x + toMove.x, middle.y + toMove.y) == DrawnPoint(v, f, middle.x, middle.y))
  {
    var middle := Midpoint(Midpoint(o0, o1), Midpoint(n0, n1));
    var toMove := PinchMove(factor, o0, o1, n0, n1);
    var scaled := ScaleAround(v, f, factor, middle.x, middle.y);
    ScaleAroundDrawnAnchor(v, f, factor, middle.x, middle.y);
    DragFollowsPointer(scaled, f, toMove.x, toMove.y, middle.x, middle.y);
  }

  /** A pinch whose fingers did not move is no gesture at all: factor 1, no
      translation, the view unchanged. */
  lemma PinchAtRest(v: View, f: Frame, m: MathLib, a: Point, b: Point)
    requires Drawable(v, f) && Lawful(m) && 0.0 < Dist2(a, b)
    ensures PinchFactor(m, a, b, a, b) == 1.0
    ensures PinchView(v, f, 1.0, a, b, a, b) == v
  {
    PinchFactorValues(m, a, b, a, b);
    var c := Midpoint(a, b);
    var s := ScaleAround(v, f, 1.0, c.x, c.y);
    assert 1.0 / s.scaling - 1.0 / v.scaling == 0.0;
    assert s == v;
    assert DragDelta(v, f, 0.0, 0.0) == Complex(0.0, 0.0);
  }

  // Algebra the solver does not find unaided.

  lemma ScaledOffset(c: real, a: real, b: real)
    requires 0.0 < b
    ensures -c * (a - b) / b == c * (1.0 - a / b)
    ensures c * (1.0 - b / b) == 0.0
  {
    SubOverSelf(a, b);
    DivMul(a - b, b);
    DivUnique(-c * (a - b), b, c * (-(a - b) / b));
  }

  lemma SubOverSelf(a: real, b: real)
    requires 0.0 < b
    ensures -(a - b) / b == 1.0 - a / b
    ensures 1.0 - b / b == 0.0
  {
    DivMul(a, b);
    assert b * (1.0 - a / b) == b - a;
    DivUnique(b - a, b, 1.0 - a / b);
    DivUnique(b, b, 1.0);
  }

  lemma NotReciprocal(s: real, factor: real)
    requires s != 0.0 && factor != 0.0 && factor != 1.0
    ensures 1.0 / (s * factor) != 1.0 / s
  {
    var r1, r0 := 1.0 / (s * factor), 1.0 / s;
    DivMul(1.0, s * factor);
    assert s * (factor * r1) == 1.0;
    DivUnique(1.0, s, factor * r1);
    assert r0 - r1 == (factor - 1.0) * r1;
    NonzeroProduct(factor - 1.0, r1);
  }


  lemma Ring(p: real, k: real, u: real, s: real)
    requires u != 0.0 && s != 0.0
    ensures ((k * p) / u - 2.0) / s == (p * (k / u) - 2.0) * (1.0 / s)
    ensures (-((k * p) / u) + 1.1) / s == (1.1 - p * (k / u)) * (1.0 / s)
  {
  }

  lemma Scale(x: real, d: real, u: real)
    requires u != 0.0
    ensures (2.0 * (x * d)) / u == x * (2.0 * d / u)
    ensures (x * d) * (2.0 / u) == x * (2.0 * d / u)
  {
  }

  lemma SumOfSquares(dx: real, dy: real)
    ensures 0.0 <= dx * dx + dy * dy
    ensures (dx != 0.0 || dy != 0.0) ==> 0.0 < dx * dx + dy * dy
  {
    if dx != 0.0 {
      SquarePos(dx);
    } else if dy != 0.0 {
      SquarePos(dy);
    }
  }

  lemma Flip(h: real, yd: real, g: real, t: real)
    requires t == yd * g
    ensures (h - yd) * g == h * g - t
  {
  }

  lemma ShiftCancels(x: real, dx: real, y: real, dy: real, ps: real, q: real, ox: real, oy: real, c: real)
    ensures ((x + dx) * ps - 2.0) * q + (ox + -(dx * ps) * q) == (x * ps - 2.0) * q + ox
    ensures (c + (y + dy) * ps) * q - (oy + (dy * ps) * q) == (c + y * ps) * q - oy
  {
  }

  lemma NonzeroDiff(x: real, y: real, a: real, b: real)
    requires x - y == a * b && a != 0.0 && b != 0.0
    ensures x != y
  {
    NonzeroProduct(a, b);
  }

  lemma ShiftAlgebra(a: real, b: real, p: real, q: real, o: real)
    ensures (a * q - (-b * (q - p) + o)) - (a * p - o) == (a + b) * (q - p)
  {
  }

  /** With `unit * g == 2`, the canvas height is `1.1` units exactly when it is
      the constraining dimension, and more otherwise. */
  lemma HeightGap(h: real, u: real)
    requires 0.0 < u && u <= h / ScreenYRatio
    ensures u == h / ScreenYRatio ==> h * (2.0 / u) == 2.2
    ensures u != h / ScreenYRatio ==> h * (2.0 / u) != 2.2
  {
    var g := 2.0 / u;
    assert u * g == 2.0;
    if u != h / ScreenYRatio {
      assert 1.1 * u < h;
      MulLt(1.1 * u, h, g);
    }
  }

  lemma KeepAlgebra(a: real, s: real, t: real, o: real)
    requires s != 0.0 && t != 0.0
    ensures a / t + (a * ((1.0 / s) - (1.0 / t)) + o) == a / s + o
  {
  }

  lemma AnchorAlgebra(a: real, p: real, q: real, o: real)
    ensures a * q + (a * (p - q) + o) == a * p + o
  {
  }
}
